=== FILE: README.md ===
# tokensmaster, modelled in Dafny

`tokensmaster` is an EOSIO contract that keeps a registry of token
definitions per *use case*.

- The contract account adds and removes use cases (`usecase`). Each use case has a manager.
- The manager configures which chain the use case accepts, whether symbols must be unique, and which keys a token's JSON metadata must contain (`usecasecfg`).
- Anyone can submit a token (`submittoken`). The submission is stored unapproved in the use case's own token table.
- The manager then approves or erases the submission (`approvetoken`).
- `reset` wipes every table.

Two routines do string processing by hand:

- `submittoken` cuts the space-separated `required_fields` into a `std::map<string,bool>`.
- `check_json_fields` scans the JSON text with a cursor and marks each required key it finds.

The model has five modules:

- `CppString`: `std::string::find_first_of`, `npos` (as -1) and the size_t wrap of `npos + 1`, and `std::to_string`.
- `FieldMap`: the `std::map<string,bool>`, as a sequence of entries in strictly increasing key order. That order is also the map's iteration order.
- `RequiredFields`:
  - the splitting loop of `submittoken`, as a method;
  - a reference `Split`/`Join` reading of a space-separated list, with the round trip proved;
  - the character loop of `usecasecfg`, as a method;
  - the proof that every key cut from a list `usecasecfg` admits is a valid field name.
- `JsonScan`: `check_json_fields` as a method with its cursor loop.
  - One pass of the loop is `ScanRound`. It reads the key (`ReadKey`), skips the value (`SkipValue`), marks the key (`MarkKey`) and finds the separator (`AfterValue`).
  - `RoundAt` and `ValueFrom` describe what a pass reads as a function of the input and the cursor.
  - A flat JSON object is described as text (`FlatObjectCovering`), and the scan is proved to accept it.
- `Registry`: the class `TokensMaster`.
  - It holds the use-case table and one token table per use case.
  - It has one method per action.
  - Its `Valid()` invariant covers every table:
    - each use case is keyed by its own name;
    - each stored configuration passes the `usecasecfg` checks;
    - ids increase in every token table and signatures are distinct;
    - every row sits in its own use case's table;
    - every token table belongs to a use case that exists.

Every action is atomic. Each method states:

- that a failure leaves both tables unchanged;
- for each check that compares an input with the tables or the context, which error it raises, in the order the action makes the checks;
- for the JSON scan and the duplicate-symbol check of `submittoken`, what each error implies about the JSON and the table, and which result comes when the JSON is a flat object of plain string members;
- the whole new state on success.

The class's constructor stands for a freshly deployed contract, with both tables empty; it has no counterpart in the source.

The hosting chain is a `Context` parameter. It holds the signing accounts (`require_auth`), the existing accounts (`is_account`) and the `(contract, symbol)` pairs found in foreign `stat` tables.

## Model

| member | source | states |
|---|---|---|
| CppString.FindFirstOf | src/seeds.tokensmaster.cpp:147-153 | the result is npos exactly when no wanted character occurs from the start position on; otherwise it is the first index at or after the start that holds one |
| CppString.Decimal | src/seeds.tokensmaster.cpp:170 | `std::to_string` of a count is a non-empty string of decimal digits whose value is the count, with no leading zero except for 0 itself |
| FieldMap.IndexOf | src/seeds.tokensmaster.cpp:163 | `field_list.find(field)` is `end()` (modelled as -1) exactly when the key is absent; otherwise it gives the entry holding that key |
| FieldMap.Assign | src/seeds.tokensmaster.cpp:45-49 | `field_list[key] = false` keeps the keys ordered and adds exactly this key. Its flag is false, and every other entry is kept unchanged |
| FieldMap.AssignAtHead | src/seeds.tokensmaster.cpp:45-49 | assigning a key that is already the first key resets its flag and leaves the rest of the map as it was |
| FieldMap.AssignBeforeHead | src/seeds.tokensmaster.cpp:45-49 | assigning a key smaller than every key inserts it in front, unseen, and keeps the map ordered |
| FieldMap.AssignAfterHead | src/seeds.tokensmaster.cpp:45-49 | assigning a key larger than the first key keeps that key first and makes the assignment in the rest of the map |
| FieldMap.LessIrreflexive | src/seeds.tokensmaster.cpp:40 | the string order of the map is irreflexive |
| FieldMap.LessTransitive | src/seeds.tokensmaster.cpp:40 | the string order of the map is transitive |
| FieldMap.LessTotal | src/seeds.tokensmaster.cpp:40 | any two different keys are ordered one way or the other |
| FieldMap.SeenCountFlip | src/seeds.tokensmaster.cpp:164-166 | flipping one false flag to true raises the number of seen keys by exactly one, which is what `--fields_remain` mirrors |
| FieldMap.SeenCountZero | src/seeds.tokensmaster.cpp:139 | a map with every flag false has no seen key, so `fields_remain` starts at the number of unseen keys |
| FieldMap.SeenCountFull | src/seeds.tokensmaster.cpp:146 | a map whose every flag is true counts every entry as seen, so `fields_remain` is 0 and the loop ends |
| FieldMap.OrderedUnique | src/seeds.tokensmaster.cpp:40 | an ordered map holds each key at one position only |
| FieldMap.UnseenNamesCount | src/seeds.tokensmaster.cpp:171-175 | the keys listed by the iteration are as many as the entries still false |
| FieldMap.UnseenNamesMembers | src/seeds.tokensmaster.cpp:171-175 | a key is listed exactly when its flag is false |
| FieldMap.UnseenNamesSorted | src/seeds.tokensmaster.cpp:171-175 | the listed keys come in strictly increasing order |
| FieldMap.UnseenNamesInOrder | src/seeds.tokensmaster.cpp:171-175 | iterating the map lists each key whose flag is still false exactly once, in strictly increasing key order. There are as many of them as unseen entries |
| RequiredFields.JoinSplit | src/seeds.tokensmaster.cpp:39-52 | the reference reading of a space-separated list loses nothing: joining its parts with spaces gives the list back |
| RequiredFields.SplitPartsHaveNoSpace | src/seeds.tokensmaster.cpp:43 | no part of the reference reading contains a space |
| RequiredFields.SplitWord | src/seeds.tokensmaster.cpp:44-45 | a list without spaces is a single part, itself |
| RequiredFields.SplitAtFirstSpace | src/seeds.tokensmaster.cpp:48-51 | cutting at the first space gives the word before it, followed by the parts of the rest |
| RequiredFields.FieldNamesOfWord | src/seeds.tokensmaster.cpp:44-46 | when no space is left, the remainder is the only key inserted, even when it is empty |
| RequiredFields.InnerWordsCons | src/seeds.tokensmaster.cpp:48-49 | a word cut off in front adds itself to the keys unless it is empty |
| RequiredFields.FieldNamesAtFirstSpace | src/seeds.tokensmaster.cpp:48-51 | a word before a space becomes a key unless it is empty (consecutive or leading spaces are skipped); the rest is then split the same way |
| RequiredFields.EmptyFieldName | src/seeds.tokensmaster.cpp:44-46 | the empty key is required exactly when the list is empty or ends with a space |
| RequiredFields.SplitRequiredFields | src/seeds.tokensmaster.cpp:39-52 | the loop builds an ordered map whose keys are exactly the keys of the reference reading, each mapped to false |
| RequiredFields.CheckFieldNames | src/seeds.tokensmaster.cpp:119-128 | it accepts exactly when every non-space character is in the charset and no word reaches 13 characters. On failure, the first failing character decides the error: "invalid field name" for a character outside the charset, otherwise "field name too long" |
| RequiredFields.TrailingRunIsLastPart | src/seeds.tokensmaster.cpp:119-128 | `name_length` after a prefix is the length of the prefix's last word |
| RequiredFields.ValidPartsAreNames | src/seeds.tokensmaster.cpp:119-128 | every word of a list that passes the character loop has at most 12 characters, all from the charset |
| RequiredFields.ValidFieldsGiveFieldNames | src/seeds.tokensmaster.cpp:119-128 | every key that `submittoken` cuts from a list that `usecasecfg` admitted is a valid field name |
| JsonScan.Message | src/seeds.tokensmaster.cpp:143-176 | the returned string is empty exactly when the scan succeeded |
| JsonScan.MissingMessage | src/seeds.tokensmaster.cpp:170 | the "missing" report begins with the word "missing" and a space |
| JsonScan.KeyAfterUnique | src/seeds.tokensmaster.cpp:147-151 | the key a round reads after a cursor is fixed by the input: one opening position and one text |
| JsonScan.RoundAtRead | src/seeds.tokensmaster.cpp:147-161 | a round has one result: when a key follows the cursor and the value after its colon ends at v, the round reads exactly that key and that value end |
| JsonScan.ReadKey | src/seeds.tokensmaster.cpp:147-162 | (1) The round finds no key exactly when no quote follows the cursor. (2) Otherwise the key opens one past the first quote after the cursor and runs, with no quote in it, to the next quote or to the end of the input. (3) The value search starts one past the first colon after the key's closing quote; a search that comes back npos makes it start at 0, as `npos + 1` wraps. (4) The value end is the one SkipValue gives from there. The result is therefore determined by the input and the cursor |
| JsonScan.SkipValue | src/seeds.tokensmaster.cpp:153-161 | (1) The search finds the first `{`, `,` or `"` at or after the start. A `{` is reported as an object at that index, and a `,` is the value's end. (2) After a `"`, the end is the first later quote not preceded by a backslash. (3) When any of these searches comes back empty the result is npos, since the C++ then reads out of range |
| JsonScan.MarkOne | src/seeds.tokensmaster.cpp:163-166 | marking an unseen key found quoted in the input keeps the key set and the earlier marks, and takes exactly one off the count of unseen keys |
| JsonScan.MarkKey | src/seeds.tokensmaster.cpp:163-166 | (1) A key the map holds unmarked becomes marked, and `fields_remain` drops by one. (2) A key the map lacks, or holds already marked, changes neither the map nor the count. (3) No other flag changes |
| JsonScan.AllMarked | src/seeds.tokensmaster.cpp:146-179 | when `fields_remain` reaches zero, every key is marked. Every key of the original map then occurs in the input as a whole quoted key: right after a quote, and followed by a quote or by the end of the input |
| JsonScan.MissingListing | src/seeds.tokensmaster.cpp:169-176 | the "missing" message lists one key per unseen entry, in strictly increasing key order |
| JsonScan.AfterValue | src/seeds.tokensmaster.cpp:168-177 | (1) The separator search starts one past the value's end, and npos there gives OutOfRange. (2) A `}` with keys still unmarked ends the scan with the "missing" report: the current count, then the unmarked keys in key order. (3) Otherwise the loop goes on from the separator, which is a `,` while keys remain |
| JsonScan.ScanRound | src/seeds.tokensmaster.cpp:147-177 | one pass of the loop, decided by the round read at the cursor (`RoundAt`, which has one solution). (1) The map's key set, its marks and the count of unmarked keys stay consistent; a round that reads a key and a string value leaves the old map with that key marked. (2) "expected \"" exactly when no quote follows the cursor; "reached {" exactly when the round's value is an object. (3) OutOfRange exactly when the value is not an object and the separator search after it comes back npos (or the value search already did). (4) "missing" exactly when that separator is a `}` and keys are still unmarked, with the report AfterValue states. (5) To go on, the next cursor is that separator: a comma inside the input while keys remain, and the count drops by one exactly when a key was marked. (6) On a flat object it reads the next member, marks its key and moves to the next member's start; after the last member it stops with "missing" exactly when names are left unmarked |
| JsonScan.PairRound | src/seeds.tokensmaster.cpp:147-161 | a round at a cursor followed by a plain `"key":"value"` member reads that key, and the value ends at the member's closing quote |
| JsonScan.FlatRoundIs | src/seeds.tokensmaster.cpp:147-168 | on a flat object the round at the cursor reads the first remaining member. The separator search stops right after it, on a `}` exactly when no member follows |
| JsonScan.FlatStart | src/seeds.tokensmaster.cpp:139-142 | a flat object starts with its `{` at position 0, followed by all its members; a map that starts all false has no seen key |
| JsonScan.ValueFromUnique | src/seeds.tokensmaster.cpp:153-161 | the value search from a position has one result: the same end and the same object flag |
| JsonScan.RoundAtUnique | src/seeds.tokensmaster.cpp:147-161 | the round read at a cursor is determined by the input and the cursor |
| JsonScan.RoundDecides | src/seeds.tokensmaster.cpp:147-168 | the round read at a cursor decides whether its value is an object and where the separator after it lies |
| JsonScan.KeyRead | src/seeds.tokensmaster.cpp:147-152 | the key read after the first quote is a whole quoted key, and the colon search starts one past its closing quote, or at 0 when there is none |
| JsonScan.FinishRound | src/seeds.tokensmaster.cpp:163-177 | after a key and a non-object value: the map becomes the old one with the key marked; OutOfRange exactly when the separator search comes back npos; "missing" exactly when it finds `}` with keys left; otherwise the loop goes on from that separator |
| JsonScan.MarkNameEntries | src/seeds.tokensmaster.cpp:163-166 | marking a key keeps every entry's name and sets exactly the flags of entries with that name |
| JsonScan.MarkMembersEntries | src/seeds.tokensmaster.cpp:146-177 | after the rounds over the first k members of a flat object, an entry is marked exactly when it was already or its name is the key of one of those members |
| JsonScan.PairUnique | src/seeds.tokensmaster.cpp:147-161 | the plain member written after a position is determined by the text |
| JsonScan.FlatUnique | src/seeds.tokensmaster.cpp:146-177 | the members that follow a cursor in a flat object are determined by the text |
| JsonScan.FlatAtMember | src/seeds.tokensmaster.cpp:146-168 | before member k of a flat object, the text after the cursor is members k onward followed by the brace |
| JsonScan.FlatRoundAt | src/seeds.tokensmaster.cpp:147-169 | before member k of a flat object, the round reads that member's key and string value, and the separator is the comma or brace at the next member's start: the brace exactly after the last member |
| JsonScan.FlatCompleteEnd | src/seeds.tokensmaster.cpp:146-179 | a scan of a flat object that marked every name only with its members' keys shows that the keys cover the map |
| JsonScan.FlatMissingEnd | src/seeds.tokensmaster.cpp:169-176 | after all members of a flat object are read, the names left unmarked are exactly the names that are not keys |
| JsonScan.UnvisitedAhead | src/seeds.tokensmaster.cpp:146-178 | while the cursor only moves forward, every position ahead of it is still unvisited |
| JsonScan.Advance | src/seeds.tokensmaster.cpp:146-178 | the guard's bookkeeping: a marking refills the unvisited set, otherwise only the old cursor leaves it, and a move back or in place is remembered |
| JsonScan.Visit | src/seeds.tokensmaster.cpp:146-178 | one pass at an unvisited loop-head cursor: its round (ScanRound), then either a stop justified at a loop-head cursor as in CheckJsonFields, or the guard's bookkeeping (PassOn); going on, either the count drops or the unvisited set shrinks; on a flat object it reads member k and hands on member k + 1, and it stops only with "missing" after the last member |
| JsonScan.StopJustified | src/seeds.tokensmaster.cpp:147-176 | each way a round stops is witnessed at its loop-head cursor: no quote after it, an object value, a separator search that came back npos, or a `}` after a string value |
| JsonScan.PassOn | src/seeds.tokensmaster.cpp:168-178 | a pass that goes on moves the cursor to the round's separator, a `,` while keys remain; the count drops or the unvisited set shrinks; a move back or in place is recorded with its witness round |
| JsonScan.FlatPassOn | src/seeds.tokensmaster.cpp:146-177 | on a flat object a pass that goes on has marked the first k + 1 members' keys and moves forward to the next member's start |
| JsonScan.ScanFrom | src/seeds.tokensmaster.cpp:146-179 | the loop from a start cursor: every result is justified at a cursor reached from the start, and on a flat object the scan ends with success or "missing", having marked exactly its members' keys |
| JsonScan.CheckJsonFields | src/seeds.tokensmaster.cpp:137-180 | (1) The key set never changes, flags only go from false to true, and a flag is set only for a key that occurs as a whole quoted key in the input. (2) "no open brace" exactly when the input has no `{`. (3) "expected \"" only when, at a loop-head cursor (the first `{` or a `,`), no quote follows. (4) "reached {" only when, at a loop-head cursor, the round's value is an object. (5) OutOfRange only when, at a loop-head cursor, a round's search came back npos before the code reads at its result. (6) Cycles only when some round moved the cursor back or kept it in place, which is how the C++ loop comes to repeat. (7) Success only once every key is marked. (8) "missing N :" only when some round at a loop-head cursor read a key and a string value and found `}` as the separator after it; N counts the keys still false, and the listed keys are exactly those, in key order. (9) For a map that starts all false and a flat object of plain string members: keys for all its names give success; keys that miss some give "missing", listing exactly the names that are not keys |
| Registry.FindSignature | src/seeds.tokensmaster.cpp:72-76 | the signature lookup finds the first row with that signature, and fails exactly when no row has it |
| Registry.CheckRequiredFields | src/seeds.tokensmaster.cpp:39-54 | (1) "no open brace" exactly when the json has no `{`. (2) On success every required key occurs as a whole quoted key in the json. (3) A "missing N" result lists exactly N required keys, in key order. (4) A json that is a flat object of plain string members with every required key passes. (5) One that lacks some required keys is reported as "missing", listing exactly the required names that are not keys. (6) Every other result is justified as for CheckJsonFields: "expected \"", "reached {", OutOfRange and "missing" by what a round at a loop-head cursor read, Cycles by a round that moved the cursor back or kept it in place |
| Registry.CheckSubmittedJson | src/seeds.tokensmaster.cpp:53-54 | (1) The step fails only with a JSON error, with JsonScanUndefined, or with JsonScanEndless. JsonScanUndefined comes only when a round at a loop-head cursor found no separator (a search came back npos), and JsonScanEndless only when some round moved the cursor back or kept it in place. (2) A JSON error carries the non-empty message of a defined scan result other than success. (3) On success every required key occurs quoted in the json. (4) A json without `{` fails with "no open brace". (5) A flat object of plain string members passes when it has every required key and fails with a "missing " message otherwise |
| Registry.ScanApproved | src/seeds.tokensmaster.cpp:78-84 | the walk over the rows with this symbol fails exactly when some row with this symbol, contract, use case and chain is already approved |
| Registry.NextIdIsFresh | src/seeds.tokensmaster.cpp:63 | `available_primary_key()` is larger than every id in the table |
| Registry.AppendKeepsTableValid | src/seeds.tokensmaster.cpp:61-64 | appending a row with a fresh id and an unused signature keeps the table's ids increasing and its signatures distinct |
| Registry.ApproveKeepsTableValid | src/seeds.tokensmaster.cpp:85-87 | setting `approved` on one row keeps the table valid |
| Registry.EraseKeepsTableValid | src/seeds.tokensmaster.cpp:88-90 | erasing one row keeps the table valid |
| Registry.SubmittedRowIsFound | src/seeds.tokensmaster.cpp:23-27 | after a row is added, its signature is found, so the same submission is refused as "token already submitted" |
| Registry.ApproveKeepsApprovedUnique | src/seeds.tokensmaster.cpp:77-87 | approving a row under its own symbol, contract, use case and chain, after the guard passed, keeps at most one approved row per such key |
| Registry.ApprovedRowBlocksItself | src/seeds.tokensmaster.cpp:80-87 | once a row is approved it blocks any later approval under its own key, its own second approval included, so approval is not idempotent |
| Registry.SignatureSplitSlipsPastGuard | src/seeds.tokensmaster.cpp:72-82 | the signature concatenates chain and contract with no separator, and the guard checks the caller's chain and contract, not those of the row found. So a chain and contract that split the same text differently approve a second row for an already approved token |
| Registry.TokensMaster.Reset | src/seeds.tokensmaster.cpp:4-12 | it needs the contract's authority; it removes every use case's token table, then the use-case table, leaving both empty |
| Registry.TokensMaster.SubmitToken | src/seeds.tokensmaster.cpp:14-65 | (1) It checks, in this order: authority, contract account, symbol validity, json length, known use case, allowed chain, signature not yet present, foreign symbol stat, the JSON scan, duplicate symbol; each of the first eight raises its own error. (2) A JSON failure carries a non-empty message, the message of a defined scan result other than success; a json without `{` fails with "no open brace". (3) On success every required key occurs quoted in the json, and exactly one unapproved row with the next id and the given fields is appended. All else is unchanged. (4) "duplicate symbol" is raised only after the JSON check passed, for a use case with unique symbols whose table already holds the symbol. (5) A submission that passes the first eight checks, whose json is a flat object of plain string members with every required key, succeeds when its symbol is not a forbidden duplicate and fails with "duplicate symbol" when it is. (6) Such a submission whose flat-object json lacks a required key fails with a "missing " JSON error |
| Registry.TokensMaster.ApproveToken | src/seeds.tokensmaster.cpp:67-91 | (1) An unknown use case gives "usecase not found"; then the manager's authority is needed; a missing signature gives "no matching row to approve". (2) Approving fails with "cannot overwrite existing token" if any row of the table with this symbol, contract, use case and chain is already approved; otherwise it sets `approved` on the matched row only. (3) Rejecting erases exactly the matched row |
| Registry.TokensMaster.ManageUseCase | src/seeds.tokensmaster.cpp:93-111 | (1) It needs the contract's authority and an existing manager account. (2) Adding fails on an existing name, and otherwise inserts a fresh row. (3) Removing fails on an unknown name or a different manager, and otherwise deletes the row and its whole token table |
| Registry.TokensMaster.ConfigureUseCase | src/seeds.tokensmaster.cpp:113-135 | (1) An unknown use case fails, and the manager's authority is needed. (2) A chain of 13 or more characters fails. (3) Otherwise it succeeds exactly when the field list passes the character loop. When the loop refuses the list, the error is the loop's: "invalid field name" when the first failing character is outside the charset, "field name too long" otherwise. (4) On success only `unique_symbols`, `allowed_chain` and `required_fields` change |

## Left out

- Authorization, account existence and the foreign `stat` table are not modelled. They are the `Context` parameter; RAM payers are dropped.
- `eosio::sha256` is not modelled: the signature index is keyed on the concatenated string itself, i.e. the hash is treated as injective.
- The contract's header file, `seeds.tokensmaster.hpp`, is not part of this model.
  - `MAXJSONLENGTH` is therefore a constructor parameter.
  - The default values of a use-case row added by `usecase` (not unique, empty chain, empty field list) are assumed.
- The symbol-code secondary index is modelled as a filter over the rows in primary-key order, not in index order. The result of the "cannot overwrite" guard does not depend on that order.
- Names and symbol codes are modelled by their `to_string()` text. Their 64-bit encodings are not modelled.
- Integer widths are not modelled: the 64-bit id counter and the `int` `fields_remain` cannot overflow here.
- JsonScan.CheckJsonFields: where the C++ reads `input[npos]` or `input[npos - 1]`, behaviour is undefined. The model returns `OutOfRange` instead and claims no outcome for that input; `submittoken` then fails with `JsonScanUndefined`. Per round the condition is exact (ScanRound); for the whole scan the contract states what `OutOfRange` implies, not that it comes.
- JsonScan.CheckJsonFields: after `npos + 1` wraps to 0, the C++ loop can come back to a cursor position with nothing marked since, and then never ends. The model detects that repeat with a set of visited positions, which is not in the C++, and returns `Cycles`. `submittoken` then fails with `JsonScanEndless`, in place of running out of CPU time. The contract states that `Cycles` needs a round that moved the cursor back or kept it in place, not that every such round leads to it.
- JsonScan.CheckJsonFields: which result comes is promised only for a flat object of plain string members: `{"k1":"v1",...,"kn":"vn"}` with no quote in a key or a value, no backslash in a value, and no whitespace. There, success and "missing" with its exact list are stated. For other inputs the contract says what each result implies about the input and the map, not which result comes. That covers inputs that use nested objects, escapes, numbers or whitespace. Each round itself is determined exactly (ReadKey, SkipValue, ScanRound).
- Registry.CheckRequiredFields: which result comes is promised only for a json without `{` and for the flat objects described above.
- Registry.CheckSubmittedJson: likewise, which result comes is promised only for a json without `{` and for those flat objects; for other json, the contract says what each failure implies about the json.
- Registry.TokensMaster.SubmitToken: past the first eight checks, which result comes is promised only for a json without `{` or a json that is such a flat object. For any other json, the contract states what each result implies, not that it comes.
- The JSON text is not checked for well-formedness; neither does the contract check it.
- The JavaScript test harnesses and `include/tables.hpp` (an unrelated user table) are not modelled.

=== FILE: CppString.dfy ===
/** The few std::string operations the contract's string routines rely on.
    A string is a sequence of chars, each standing for one byte. */
module CppString {

  /** std::string::npos. Positions are ints here so that npos can be told
      apart from every real index. */
  const NPOS: int := -1

  /** A position as returned by a find: a real index or npos. */
  predicate IsPos(p: int) {
    p == NPOS || p >= 0
  }

  /** `p + 1` on size_t: npos is the largest size_t, so npos + 1 wraps to 0. */
  function Succ(p: int): nat
    requires IsPos(p)
  {
    if p == NPOS then 0 else p + 1
  }

  /** s.find_first_of(chars, pos): the first index at or after `pos` that holds
      one of `chars`, or npos. A start at or past the end gives npos. */
  function FindFirstOf(s: string, chars: set<char>, pos: nat): (r: int)
    ensures r == NPOS ==> forall i :: pos <= i < |s| ==> s[i] !in chars
    ensures r != NPOS ==> pos <= r < |s| && s[r] in chars
    ensures r != NPOS ==> forall i :: pos <= i < r ==> s[i] !in chars
    decreases |s| - pos
  {
    if pos >= |s| then NPOS
    else if s[pos] in chars then pos
    else FindFirstOf(s, chars, pos + 1)
  }

  /** The number a string of decimal digits denotes. */
  function DigitsValue(s: string): nat
    requires forall i :: 0 <= i < |s| ==> '0' <= s[i] <= '9'
  {
    if s == [] then 0 else DigitsValue(s[..|s| - 1]) * 10 + (s[|s| - 1] as int - '0' as int)
  }

  /** The digits std::to_string writes for a non-negative number: they
      denote it, and only zero itself starts with a zero. */
  function Decimal(n: nat): (s: string)
    ensures |s| >= 1
    ensures forall i :: 0 <= i < |s| ==> '0' <= s[i] <= '9'
    ensures DigitsValue(s) == n
    ensures s[0] == '0' <==> n == 0
    ensures |s| > 1 ==> s[0] != '0'
  {
    if n < 10 then [('0' as int + n) as char]
    else
      var s := Decimal(n / 10) + [('0' as int + n % 10) as char];
      assert s[..|s| - 1] == Decimal(n / 10);
      s
  }
}

=== FILE: FieldMap.dfy ===
/** std::map<string, bool> as the contract uses it for the required JSON
    fields: a sequence of entries kept in strictly increasing key order, which
    is also the order in which the map is iterated. */
module FieldMap {

  /** std::string's operator<: byte-wise lexicographic, a proper prefix first. */
  predicate Less(a: string, b: string)
    decreases |a|
  {
    if |a| == 0 then |b| > 0
    else if |b| == 0 then false
    else if a[0] != b[0] then a[0] < b[0]
    else Less(a[1..], b[1..])
  }

  lemma {:induction false} LessIrreflexive(a: string)
    ensures !Less(a, a)
    decreases |a|
  {
    if |a| > 0 {
      LessIrreflexive(a[1..]);
    }
  }

  lemma {:induction false} LessTransitive(a: string, b: string, c: string)
    requires Less(a, b) && Less(b, c)
    ensures Less(a, c)
    decreases |a|
  {
    if |a| > 0 && a[0] == b[0] && b[0] == c[0] {
      LessTransitive(a[1..], b[1..], c[1..]);
    }
  }

  lemma {:induction false} LessTotal(a: string, b: string)
    requires a != b
    ensures Less(a, b) || Less(b, a)
    decreases |a|
  {
    if |a| > 0 && |b| > 0 && a[0] == b[0] {
      assert a == [a[0]] + a[1..] && b == [b[0]] + b[1..];
      LessTotal(a[1..], b[1..]);
    }
  }

  /** One key of the map and whether it has been seen. */
  datatype Entry = Entry(name: string, seen: bool)

  type Fields = seq<Entry>

  /** The map's own invariant: keys strictly increase, hence are distinct. */
  predicate Ordered(fs: Fields) {
    forall i, j :: 0 <= i < j < |fs| ==> Less(fs[i].name, fs[j].name)
  }

  function Names(fs: Fields): set<string> {
    set i | 0 <= i < |fs| :: fs[i].name
  }

  predicate HasKey(fs: Fields, key: string) {
    exists i :: 0 <= i < |fs| && fs[i].name == key
  }

  /** fs.find(key): the position of the key, or npos (-1) when it is absent. */
  function IndexOf(fs: Fields, key: string): (r: int)
    ensures -1 <= r < |fs|
    ensures r == -1 <==> !HasKey(fs, key)
    ensures r >= 0 ==> fs[r].name == key
  {
    if fs == [] then -1
    else if fs[0].name == key then 0
    else
      var r := IndexOf(fs[1..], key);
      assert forall i :: 0 < i < |fs| ==> fs[i] == fs[1..][i - 1];
      if r == -1 then -1 else r + 1
  }

  lemma NamesCons(e: Entry, fs: Fields)
    ensures Names([e] + fs) == {e.name} + Names(fs)
  {
    var r := [e] + fs;
    forall x | x in Names(r) ensures x in {e.name} + Names(fs) {
      var i :| 0 <= i < |r| && r[i].name == x;
      if i > 0 { assert fs[i - 1].name == x; }
    }
    forall x | x in Names(fs) ensures x in Names(r) {
      var i :| 0 <= i < |fs| && fs[i].name == x;
      assert r[i + 1].name == x;
    }
    assert r[0].name == e.name;
  }

  /** What `fs[key] = false` leaves: the map still ordered, exactly one key
      added, its flag false, every other entry as it was. */
  predicate AssignResult(fs: Fields, key: string, r: Fields) {
    && Ordered(r)
    && Names(r) == Names(fs) + {key}
    && (forall i :: 0 <= i < |r| && r[i].name == key ==> !r[i].seen)
    && (forall i :: 0 <= i < |r| && r[i].name != key ==> r[i] in fs)
    && (forall e :: e in fs && e.name != key ==> e in r)
  }

  /** fs[key] = false: inserts the key in order, or resets its flag. */
  function Assign(fs: Fields, key: string): (r: Fields)
    requires Ordered(fs)
    ensures Ordered(r)
    ensures Names(r) == Names(fs) + {key}
    ensures forall i :: 0 <= i < |r| && r[i].name == key ==> !r[i].seen
    ensures forall i :: 0 <= i < |r| && r[i].name != key ==> r[i] in fs
    ensures forall e :: e in fs && e.name != key ==> e in r
  {
    if fs == [] then
      NamesCons(Entry(key, false), []);
      [Entry(key, false)]
    else if fs[0].name == key then
      AssignAtHead(fs, key);
      [Entry(key, false)] + fs[1..]
    else if Less(key, fs[0].name) then
      AssignBeforeHead(fs, key);
      [Entry(key, false)] + fs
    else
      var rest := Assign(fs[1..], key);
      AssignAfterHead(fs, key, rest);
      [fs[0]] + rest
  }

  /** The key is the first one: its flag is reset. */
  lemma AssignAtHead(fs: Fields, key: string)
    requires Ordered(fs) && fs != [] && fs[0].name == key
    ensures AssignResult(fs, key, [Entry(key, false)] + fs[1..])
  {
    assert fs == [fs[0]] + fs[1..];
    NamesCons(fs[0], fs[1..]);
    NamesCons(Entry(key, false), fs[1..]);
    forall j | 0 < j < |fs| ensures fs[j].name != key {
      LessIrreflexive(key);
    }
  }

  /** The key comes before the first one: it is inserted in front. */
  lemma AssignBeforeHead(fs: Fields, key: string)
    requires Ordered(fs) && fs != [] && Less(key, fs[0].name)
    ensures AssignResult(fs, key, [Entry(key, false)] + fs)
  {
    OrderedPrepend(Entry(key, false), fs);
    NamesCons(Entry(key, false), fs);
    forall j | 0 <= j < |fs| ensures fs[j].name != key {
      LessIrreflexive(key);
    }
  }

  /** The key comes after the first one: the first entry stays in front of
      the assignment into the rest. */
  lemma AssignAfterHead(fs: Fields, key: string, rest: Fields)
    requires Ordered(fs) && fs != [] && fs[0].name != key && !Less(key, fs[0].name)
    requires AssignResult(fs[1..], key, rest)
    ensures AssignResult(fs, key, [fs[0]] + rest)
  {
    AssignAfterHeadOrdered(fs, key, rest);
    assert fs == [fs[0]] + fs[1..];
    NamesCons(fs[0], fs[1..]);
    NamesCons(fs[0], rest);
    AssignAfterHeadEntries(fs, key, rest);
  }

  lemma AssignAfterHeadOrdered(fs: Fields, key: string, rest: Fields)
    requires Ordered(fs) && fs != [] && fs[0].name != key && !Less(key, fs[0].name)
    requires Ordered(rest)
    requires forall i :: 0 <= i < |rest| && rest[i].name != key ==> rest[i] in fs[1..]
    ensures Ordered([fs[0]] + rest)
  {
    LessTotal(key, fs[0].name);
    forall j | 0 <= j < |rest| ensures Less(fs[0].name, rest[j].name) {
      if rest[j].name != key {
        var k :| 0 <= k < |fs[1..]| && fs[1..][k] == rest[j];
        assert fs[k + 1] == rest[j];
      }
    }
    OrderedCons(fs[0], rest);
  }

  lemma AssignAfterHeadEntries(fs: Fields, key: string, rest: Fields)
    requires fs != [] && fs[0].name != key
    requires forall i :: 0 <= i < |rest| && rest[i].name == key ==> !rest[i].seen
    requires forall i :: 0 <= i < |rest| && rest[i].name != key ==> rest[i] in fs[1..]
    requires forall e :: e in fs[1..] && e.name != key ==> e in rest
    ensures forall i :: 0 <= i < |[fs[0]] + rest| && ([fs[0]] + rest)[i].name == key ==> !([fs[0]] + rest)[i].seen
    ensures forall i :: 0 <= i < |[fs[0]] + rest| && ([fs[0]] + rest)[i].name != key ==> ([fs[0]] + rest)[i] in fs
    ensures forall e :: e in fs && e.name != key ==> e in [fs[0]] + rest
  {
    var r := [fs[0]] + rest;
    forall i | 0 < i < |r| ensures r[i] == rest[i - 1] { }
    forall i | 0 <= i < |r| && r[i].name != key ensures r[i] in fs {
      if i > 0 {
        assert rest[i - 1] in fs[1..];
      }
    }
    forall e | e in fs && e.name != key ensures e in r {
      var k :| 0 <= k < |fs| && fs[k] == e;
      if k > 0 { assert fs[1..][k - 1] == e; }
    }
  }

  /** An entry whose key precedes every key of an ordered map can go in front. */
  lemma OrderedCons(e: Entry, fs: Fields)
    requires Ordered(fs)
    requires forall j :: 0 <= j < |fs| ==> Less(e.name, fs[j].name)
    ensures Ordered([e] + fs)
  {
    var r := [e] + fs;
    forall i, j | 0 <= i < j < |r| ensures Less(r[i].name, r[j].name) {
      assert r[j] == fs[j - 1];
      if i > 0 { assert r[i] == fs[i - 1]; }
    }
  }

  lemma OrderedPrepend(e: Entry, fs: Fields)
    requires Ordered(fs) && fs != [] && Less(e.name, fs[0].name)
    ensures Ordered([e] + fs)
    ensures forall j :: 0 <= j < |fs| ==> Less(e.name, fs[j].name)
  {
    forall j | 0 < j < |fs| ensures Less(e.name, fs[j].name) {
      LessTransitive(e.name, fs[0].name, fs[j].name);
    }
    OrderedCons(e, fs);
  }

  /** Number of entries already seen. */
  function SeenCount(fs: Fields): (n: nat)
    ensures n <= |fs|
  {
    if fs == [] then 0
    else (if fs[0].seen then 1 else 0) + SeenCount(fs[1..])
  }

  lemma {:induction false} SeenCountFlip(fs: Fields, i: nat)
    requires i < |fs| && !fs[i].seen
    ensures SeenCount(fs[i := fs[i].(seen := true)]) == SeenCount(fs) + 1
  {
    var gs := fs[i := fs[i].(seen := true)];
    if i > 0 {
      assert gs[1..] == fs[1..][i - 1 := fs[i].(seen := true)];
      SeenCountFlip(fs[1..], i - 1);
    } else {
      assert gs[1..] == fs[1..];
    }
  }

  lemma {:induction false} SeenCountAll(fs: Fields)
    requires SeenCount(fs) == |fs|
    ensures forall i :: 0 <= i < |fs| ==> fs[i].seen
  {
    if fs != [] {
      SeenCountAll(fs[1..]);
      assert forall i :: 0 < i < |fs| ==> fs[i] == fs[1..][i - 1];
    }
  }

  lemma {:induction false} SeenCountNone(fs: Fields)
    requires SeenCount(fs) == 0
    ensures forall i :: 0 <= i < |fs| ==> !fs[i].seen
  {
    if fs != [] {
      SeenCountNone(fs[1..]);
      assert forall i :: 0 < i < |fs| ==> fs[i] == fs[1..][i - 1];
    }
  }

  lemma {:induction false} SeenCountZero(fs: Fields)
    requires forall i :: 0 <= i < |fs| ==> !fs[i].seen
    ensures SeenCount(fs) == 0
  {
    if fs != [] {
      assert forall i :: 0 < i < |fs| ==> fs[i] == fs[1..][i - 1];
      SeenCountZero(fs[1..]);
    }
  }

  lemma {:induction false} SeenCountFull(fs: Fields)
    requires forall i :: 0 <= i < |fs| ==> fs[i].seen
    ensures SeenCount(fs) == |fs|
  {
    if fs != [] {
      assert forall i :: 0 < i < |fs| ==> fs[i] == fs[1..][i - 1];
      SeenCountFull(fs[1..]);
    }
  }

  /** A key occurs at most once in an ordered map. */
  lemma OrderedUnique(fs: Fields, i: int, j: int)
    requires Ordered(fs) && 0 <= i < |fs| && 0 <= j < |fs| && fs[i].name == fs[j].name
    ensures i == j
  {
    LessIrreflexive(fs[i].name);
  }

  /** The keys still mapped to false, in iteration (key) order. */
  function UnseenNames(fs: Fields): seq<string> {
    if fs == [] then []
    else (if fs[0].seen then [] else [fs[0].name]) + UnseenNames(fs[1..])
  }

  /** One key is listed per entry still unseen. */
  lemma {:induction false} UnseenNamesCount(fs: Fields)
    ensures |UnseenNames(fs)| == |fs| - SeenCount(fs)
  {
    if fs != [] {
      UnseenNamesCount(fs[1..]);
    }
  }

  /** The listed keys are exactly the keys whose flag is false. */
  lemma {:induction false} UnseenNamesMembers(fs: Fields)
    ensures forall x :: x in UnseenNames(fs) <==> exists i :: 0 <= i < |fs| && fs[i].name == x && !fs[i].seen
  {
    if fs != [] {
      var rest := fs[1..];
      UnseenNamesMembers(rest);
      forall x ensures x in UnseenNames(fs) <==> exists i :: 0 <= i < |fs| && fs[i].name == x && !fs[i].seen {
        if exists i :: 0 <= i < |fs| && fs[i].name == x && !fs[i].seen {
          var i :| 0 <= i < |fs| && fs[i].name == x && !fs[i].seen;
          if i > 0 { assert rest[i - 1] == fs[i]; }
        }
        if x in UnseenNames(rest) {
          var i :| 0 <= i < |rest| && rest[i].name == x && !rest[i].seen;
          assert fs[i + 1] == rest[i];
        }
      }
    }
  }

  /** The listed keys come in strictly increasing order. */
  lemma {:induction false} UnseenNamesSorted(fs: Fields)
    requires Ordered(fs)
    ensures forall i, j :: 0 <= i < j < |UnseenNames(fs)| ==> Less(UnseenNames(fs)[i], UnseenNames(fs)[j])
  {
    if fs != [] {
      var rest := fs[1..];
      assert Ordered(rest) by {
        assert forall i :: 0 <= i < |rest| ==> rest[i] == fs[i + 1];
      }
      UnseenNamesSorted(rest);
      UnseenNamesMembers(rest);
      var u := UnseenNames(rest);
      if !fs[0].seen {
        var all := [fs[0].name] + u;
        forall i, j | 0 <= i < j < |all| ensures Less(all[i], all[j]) {
          if i == 0 {
            assert all[j] == u[j - 1] && u[j - 1] in u;
            var k :| 0 <= k < |rest| && rest[k].name == u[j - 1] && !rest[k].seen;
            assert fs[k + 1] == rest[k];
          } else {
            assert all[i] == u[i - 1] && all[j] == u[j - 1];
          }
        }
      }
    }
  }

  /** The unseen keys are listed in strictly increasing order, one per unseen
      entry, and they are exactly the keys whose flag is false. */
  lemma UnseenNamesInOrder(fs: Fields)
    requires Ordered(fs)
    ensures |UnseenNames(fs)| == |fs| - SeenCount(fs)
    ensures forall i, j :: 0 <= i < j < |UnseenNames(fs)| ==> Less(UnseenNames(fs)[i], UnseenNames(fs)[j])
    ensures forall x :: x in UnseenNames(fs) <==> exists i :: 0 <= i < |fs| && fs[i].name == x && !fs[i].seen
  {
    UnseenNamesCount(fs);
    UnseenNamesSorted(fs);
    UnseenNamesMembers(fs);
  }
}

=== FILE: JsonScan.dfy ===
/** `check_json_fields`: a cursor scan over a JSON text that marks which of
    the required top-level keys occur. It does not parse JSON; it hops from
    quote to colon to separator with find_first_of. */
module JsonScan {
  import opened CppString
  import opened FieldMap

  /** How a scan ends. The first five are the strings the function returns;
      the last two are where the C++ has no defined result. */
  datatype Outcome =
    | Complete                              // ""
    | NoOpenBrace                           // "no open brace"
    | ExpectedQuote                         // "expected \""
    | ReachedBrace                          // "reached {"
    | Missing(remain: nat, unseen: seq<string>)
      // "missing <remain> :" then " <key>" for each unseen key
    | OutOfRange
      // a find came back npos and the code then reads input[npos] or
      // input[npos - 1]: undefined behaviour, no outcome is claimed
    | Cycles
      // the cursor came back to a place it left with the map unchanged since:
      // every later round repeats, so the C++ loop never ends

  predicate Defined(o: Outcome) {
    !o.OutOfRange? && !o.Cycles?
  }

  /** " k1 k2 ..." for the listed keys. */
  function SpacedNames(names: seq<string>): string {
    if names == [] then "" else " " + names[0] + SpacedNames(names[1..])
  }

  /** The string the C++ function returns. Only success is empty, which is
      what `submittoken` tests. */
  function Message(o: Outcome): (m: string)
    requires Defined(o)
    ensures m == "" <==> o == Complete
  {
    match o
    case Complete => ""
    case NoOpenBrace => "no open brace"
    case ExpectedQuote => "expected \""
    case ReachedBrace => "reached {"
    case Missing(remain, unseen) =>
      assert ("missing " + Decimal(remain) + " :" + SpacedNames(unseen))[0] == 'm';
      "missing " + Decimal(remain) + " :" + SpacedNames(unseen)
  }

  /** The "missing" report starts with the word and a space. */
  lemma MissingMessage(o: Outcome)
    requires o.Missing?
    ensures |Message(o)| >= 8 && Message(o)[..8] == "missing "
  {
    var m := "missing " + Decimal(o.remain) + " :" + SpacedNames(o.unseen);
    assert m[..8] == "missing ";
  }

  /** `name` occurs in `input` as a quoted key starting at position k: right
      after a quote, and right before a quote or, for a key whose closing
      quote is missing (the scan then reads to the end), the end of input. */
  predicate QuotedAt(input: string, name: string, k: int) {
    && 1 <= k && k + |name| <= |input|
    && input[k - 1] == '"' && input[k..k + |name|] == name
    && (k + |name| == |input| || input[k + |name|] == '"')
  }

  ghost predicate QuotedIn(input: string, name: string) {
    exists k :: QuotedAt(input, name, k)
  }

  /** After the cursor at position c there is no quote left. */
  ghost predicate NoQuoteAfter(input: string, c: int) {
    0 <= c < |input| && forall i :: c < i < |input| ==> input[i] != '"'
  }

  /** What the scan has done to the map so far: the same keys in the same
      places, flags only set from false to true, and set only for keys that
      occur quoted in the input. */
  ghost predicate MarksFrom(fieldList: Fields, fields: Fields, input: string) {
    && |fields| == |fieldList|
    && (forall i :: 0 <= i < |fields| ==> fields[i].name == fieldList[i].name)
    && (forall i :: 0 <= i < |fields| && fieldList[i].seen ==> fields[i].seen)
    && (forall i :: 0 <= i < |fields| && fields[i].seen && !fieldList[i].seen ==> QuotedIn(input, fields[i].name))
  }

  /** Marking an unseen key found quoted in the input keeps MarksFrom and
      takes one off the count of unseen keys. */
  lemma MarkOne(fieldList: Fields, fields: Fields, input: string, i: nat, start: int)
    requires MarksFrom(fieldList, fields, input)
    requires i < |fields| && !fields[i].seen && QuotedAt(input, fields[i].name, start)
    ensures MarksFrom(fieldList, fields[i := Entry(fields[i].name, true)], input)
    ensures SeenCount(fields[i := Entry(fields[i].name, true)]) == SeenCount(fields) + 1
  {
    SeenCountFlip(fields, i);
  }

  /** With nothing left to find, every key is marked and every key of the
      original map occurs quoted in the input. */
  lemma AllMarked(fieldList: Fields, fields: Fields, input: string)
    requires MarksFrom(fieldList, fields, input)
    requires |fields| - SeenCount(fields) + SeenCount(fieldList) == 0
    ensures forall i :: 0 <= i < |fields| ==> fields[i].seen
    ensures forall i :: 0 <= i < |fieldList| ==> QuotedIn(input, fieldList[i].name)
  {
    SeenCountAll(fields);
    SeenCountNone(fieldList);
  }

  /** The unmarked keys of an ordered map, as the "missing" message lists
      them: one per count not taken off, in key order. */
  lemma MissingListing(fieldList: Fields, fields: Fields, input: string)
    requires MarksFrom(fieldList, fields, input) && Ordered(fieldList)
    ensures |UnseenNames(fields)| == |fields| - SeenCount(fields)
    ensures forall i, j :: 0 <= i < j < |UnseenNames(fields)| ==> Less(UnseenNames(fields)[i], UnseenNames(fields)[j])
  {
    assert Ordered(fields);
    UnseenNamesCount(fields);
    UnseenNamesSorted(fields);
  }

  /** What the "missing" report says: a `}` ended the scan with `remain`
      keys not taken off the count, and it lists the unmarked keys in key
      order, one per count not taken off (all of them for a map that starts
      all false). */
  ghost predicate MissingReport(fieldList: Fields, fields: Fields, input: string, remain: int, unseen: seq<string>) {
    && '}' in input && remain > 0
    && unseen == UnseenNames(fields)
    && remain == |fields| - SeenCount(fields) + SeenCount(fieldList)
    && |unseen| == remain - SeenCount(fieldList)
    && forall i, j :: 0 <= i < j < |unseen| ==> Less(unseen[i], unseen[j])
  }

  /** The positions 0 .. n - 1. */
  function Positions(n: nat): (ps: set<int>)
    ensures forall i :: i in ps <==> 0 <= i < n
  {
    if n == 0 then {} else Positions(n - 1) + {n - 1}
  }

  /** A cursor a round starts from: the first `{` of the input, or a comma
      the separator search stopped at. */
  ghost predicate LoopHead(input: string, c: int) {
    HeadFrom(input, FindFirstOf(input, {'{'}, 0), c)
  }

  /** A cursor a round starts from, for a scan that started at `start`. */
  ghost predicate HeadFrom(input: string, start: int, c: int) {
    0 <= c < |input| && (c == start || input[c] == ',')
  }

  /** The key read after cursor c: it opens at the first quote after c and
      runs, without a quote, up to the next quote or to the end of the input. */
  predicate KeyAfter(input: string, c: int, field: string, start: int) {
    && QuotedAt(input, field, start)
    && 0 <= c < start - 1 && (forall i :: c < i < start - 1 ==> input[i] != '"')
    && '"' !in field
  }

  /** The key after a cursor is determined by the input. */
  lemma KeyAfterUnique(input: string, c: int, field1: string, start1: int, field2: string, start2: int)
    requires KeyAfter(input, c, field1, start1) && KeyAfter(input, c, field2, start2)
    ensures field1 == field2 && start1 == start2
  {
    // neither key holds a quote, so each ends at the first quote after it
    forall i | start1 <= i < start1 + |field1| ensures input[i] != '"' {
      assert input[i] == field1[i - start1];
    }
    forall i | start2 <= i < start2 + |field2| ensures input[i] != '"' {
      assert input[i] == field2[i - start2];
    }
  }

  /** Where the value search starts once the key's closing quote is at
      `keyEnd` (|input| when it is missing, so that the colon search starts
      at npos + 1 == 0): one past the first colon, or npos + 1 == 0 when
      there is none. */
  function AfterColon(input: string, keyEnd: nat): nat {
    var close := if keyEnd < |input| then keyEnd else NPOS;
    Succ(FindFirstOf(input, {':'}, Succ(close)))
  }

  /** A quote at j that no backslash escapes. */
  predicate UnescapedQuote(input: string, j: int) {
    0 < j < |input| && input[j] == '"' && input[j - 1] != '\\'
  }

  /** v is the first unescaped quote after position f, or npos when there
      is none. */
  ghost predicate FirstUnescapedAfter(input: string, f: int, v: int) {
    if v == NPOS then forall j :: f < j < |input| ==> !UnescapedQuote(input, j)
    else f < v && UnescapedQuote(input, v) && forall j :: f < j < v ==> !UnescapedQuote(input, j)
  }

  /** The value search from `from`: the first `{`, `,` or `"`. An object is
      reported as such; a comma is where the value ends; a string ends at
      the first later quote no backslash escapes. npos where a search comes
      back empty, since the C++ then reads out of range. */
  ghost predicate ValueFrom(input: string, from: nat, v: int, isObject: bool) {
    var f := FindFirstOf(input, {'{', ',', '"'}, from);
    if f == NPOS then v == NPOS && !isObject
    else if input[f] == '{' then v == f && isObject
    else if input[f] == ',' then v == f && !isObject
    else !isObject && FirstUnescapedAfter(input, f, v)
  }

  /** The value search has one result. */
  lemma ValueFromUnique(input: string, from: nat, v1: int, isObject1: bool, v2: int, isObject2: bool)
    requires ValueFrom(input, from, v1, isObject1) && ValueFrom(input, from, v2, isObject2)
    ensures v1 == v2 && isObject1 == isObject2
  {
  }

  /** What one round finds after the loop-head cursor: nothing when no quote
      is left, or the key and the end of its value (npos when a search came
      back empty), with whether the value is an object. */
  datatype Round =
    | NoKey
    | Read(field: string, start: int, valueEnd: int, isObject: bool)

  /** r is what a round started at cursor c reads. */
  ghost predicate RoundAt(input: string, c: int, r: Round) {
    && (r == NoKey <==> NoQuoteAfter(input, c))
    && (r.Read? ==>
          && KeyAfter(input, c, r.field, r.start)
          && ValueFrom(input, AfterColon(input, r.start + |r.field|), r.valueEnd, r.isObject))
  }

  /** The round at cursor c reads a key whose value is an object. */
  ghost predicate ObjectValueAt(input: string, c: int) {
    exists r :: RoundAt(input, c, r) && r.Read? && r.isObject
  }

  /** Where the separator search after a value stops: npos when the value
      search itself came back empty, since either way the C++ then reads
      out of range. */
  function NextSeparator(input: string, valueEnd: int): int {
    if valueEnd < 0 then NPOS else FindFirstOf(input, {',', '}'}, valueEnd + 1)
  }

  /** The round at cursor c reads a key whose value is not an object, and
      the separator search after that value stops at n. */
  ghost predicate SeparatorAt(input: string, c: int, n: int) {
    exists r :: RoundAt(input, c, r) && r.Read? && !r.isObject && n == NextSeparator(input, r.valueEnd)
  }

  /** A round has one result. */
  lemma RoundAtUnique(input: string, c: int, r1: Round, r2: Round)
    ensures RoundAt(input, c, r1) && RoundAt(input, c, r2) ==> r1 == r2
  {
    if RoundAt(input, c, r1) && RoundAt(input, c, r2) && r1.Read? && r2.Read? {
      KeyAfterUnique(input, c, r1.field, r1.start, r2.field, r2.start);
      ValueFromUnique(input, AfterColon(input, r1.start + |r1.field|), r1.valueEnd, r1.isObject, r2.valueEnd, r2.isObject);
    }
  }

  /** So the round read at a cursor decides whether its value is an object
      and where the separator after it is. */
  lemma RoundDecides(input: string, c: int, round: Round)
    ensures RoundAt(input, c, round) ==>
              && (ObjectValueAt(input, c) <==> round.Read? && round.isObject)
              && (forall n :: SeparatorAt(input, c, n) <==>
                    round.Read? && !round.isObject && n == NextSeparator(input, round.valueEnd))
  {
    if RoundAt(input, c, round) {
      forall r | RoundAt(input, c, r) ensures r == round {
        RoundAtUnique(input, c, r, round);
      }
    }
  }

  /** A round has one result: when a key follows the cursor, the round
      reads that key and the value after its colon. */
  lemma RoundAtRead(input: string, c: int, r: Round, field: string, start: int, v: int, isObject: bool)
    requires KeyAfter(input, c, field, start)
    requires ValueFrom(input, AfterColon(input, start + |field|), v, isObject)
    ensures RoundAt(input, c, r) ==> r == Read(field, start, v, isObject)
  {
    if RoundAt(input, c, r) {
      assert input[start - 1] == '"';
      KeyAfterUnique(input, c, r.field, r.start, field, start);
      ValueFromUnique(input, AfterColon(input, start + |field|), r.valueEnd, r.isObject, v, isObject);
    }
  }

  /** The key a round reads: from the first quote after the cursor to the
      next quote, or to the end of the input when there is none; the colon
      search then starts one past that quote, or at npos + 1 == 0. */
  lemma KeyRead(input: string, cp: nat, q: int, close: int, field: string)
    requires cp < |input| && q == FindFirstOf(input, {'"'}, cp + 1) && q != NPOS
    requires close == FindFirstOf(input, {'"'}, q + 1)
    requires field == if close == NPOS then input[q + 1..] else input[q + 1..close]
    ensures KeyAfter(input, cp, field, q + 1)
    ensures AfterColon(input, q + 1 + |field|) == Succ(FindFirstOf(input, {':'}, Succ(close)))
  {
    var s := q + 1;
    assert QuotedAt(input, field, s);
    forall k | 0 <= k < |field| ensures field[k] != '"' {
      assert field[k] == input[s + k];
    }
  }

  /** One round, up to the value's end: the quoted key (without a closing
      quote substr keeps the rest of the input), then the colon, searched
      from one past the closing quote (position 0 when there was none, as
      npos + 1 wraps), then the value. */
  method ReadKey(input: string, cp: nat) returns (r: Round)
    requires cp < |input|
    ensures RoundAt(input, cp, r)
  {
    var q := FindFirstOf(input, {'"'}, cp + 1);
    if q == NPOS {
      return NoKey;
    }
    var close := FindFirstOf(input, {'"'}, q + 1);
    var field := if close == NPOS then input[q + 1..] else input[q + 1..close];
    var colon := FindFirstOf(input, {':'}, Succ(close));
    var v, isObject := SkipValue(input, Succ(colon));
    RoundRead(input, cp, q, close, field, v, isObject);
    return Read(field, q + 1, v, isObject);
  }

  /** A round that finds a quote after the cursor reads the key there and
      then the value after the colon that follows it. */
  lemma RoundRead(input: string, cp: nat, q: int, close: int, field: string, v: int, isObject: bool)
    requires cp < |input| && q == FindFirstOf(input, {'"'}, cp + 1) && q != NPOS
    requires close == FindFirstOf(input, {'"'}, q + 1)
    requires field == if close == NPOS then input[q + 1..] else input[q + 1..close]
    requires ValueFrom(input, Succ(FindFirstOf(input, {':'}, Succ(close))), v, isObject)
    ensures RoundAt(input, cp, Read(field, q + 1, v, isObject))
  {
    KeyRead(input, cp, q, close, field);
    RoundOf(input, cp, field, q + 1, v, isObject);
  }

  /** A key after the cursor and the value after its colon make a round. */
  lemma RoundOf(input: string, c: int, field: string, start: int, v: int, isObject: bool)
    requires KeyAfter(input, c, field, start)
    requires ValueFrom(input, AfterColon(input, start + |field|), v, isObject)
    ensures RoundAt(input, c, Read(field, start, v, isObject))
  {
    assert input[start - 1] == '"';
  }

  /** The value after a key, searched from `from`; see ValueFrom. */
  method SkipValue(input: string, from: nat) returns (v: int, isObject: bool)
    ensures ValueFrom(input, from, v, isObject)
  {
    var f := FindFirstOf(input, {'{', ',', '"'}, from);
    if f == NPOS {
      return NPOS, false;
    }
    if input[f] == '{' {
      return f, true;
    }
    if input[f] == ',' {
      return f, false;
    }
    v := FindFirstOf(input, {'"'}, f + 1);
    if v == NPOS {
      return NPOS, false;
    }
    while input[v - 1] == '\\'
      invariant f < v < |input| && input[v] == '"'
      invariant forall j :: f < j < v ==> !UnescapedQuote(input, j)
      decreases |input| - v
    {
      v := FindFirstOf(input, {'"'}, v + 1);
      if v == NPOS {
        return NPOS, false;
      }
    }
    return v, false;
  }

  /** One `"key":"value"` member of a flat JSON object of strings. */
  datatype Pair = Pair(key: string, value: string)

  /** A member the scan reads as written: no quote in the key or the value,
      and no backslash in the value. */
  predicate PlainPair(p: Pair) {
    '"' !in p.key && '"' !in p.value && '\\' !in p.value
  }

  function PairText(p: Pair): string {
    ['"'] + p.key + ['"', ':', '"'] + p.value + ['"']
  }

  /** The members' texts separated by commas. */
  function Members(ps: seq<Pair>): string {
    if ps == [] then ""
    else if |ps| == 1 then PairText(ps[0])
    else PairText(ps[0]) + [','] + Members(ps[1..])
  }

  function Keys(ps: seq<Pair>): set<string> {
    set i | 0 <= i < |ps| :: ps[i].key
  }

  /** `input` is exactly the object {"k1":"v1",...,"kn":"vn"} of n >= 1
      plain members. */
  ghost predicate FlatObject(input: string, ps: seq<Pair>) {
    && |ps| >= 1 && (forall i :: 0 <= i < |ps| ==> PlainPair(ps[i]))
    && input == ['{'] + Members(ps) + ['}']
  }

  /** A flat object with a key for every name. */
  ghost predicate FlatObjectCovering(input: string, ps: seq<Pair>, names: set<string>) {
    FlatObject(input, ps) && names <= Keys(ps)
  }

  /** The text of member p starts right after position c. */
  predicate PairAt(input: string, c: int, p: Pair) {
    0 <= c && c + 1 + |PairText(p)| <= |input| && input[c + 1..c + 1 + |PairText(p)|] == PairText(p)
  }

  /** The characters of a member written after position c. */
  lemma PairChars(input: string, c: int, p: Pair)
    requires PairAt(input, c, p)
    ensures |PairText(p)| == |p.key| + |p.value| + 5
    ensures input[c + 1] == '"' && input[c + 2 + |p.key|] == '"'
    ensures input[c + 3 + |p.key|] == ':' && input[c + 4 + |p.key|] == '"'
    ensures input[c + |PairText(p)|] == '"'
    ensures forall i :: 0 <= i < |p.key| ==> input[c + 2 + i] == p.key[i]
    ensures forall i :: 0 <= i < |p.value| ==> input[c + 5 + |p.key| + i] == p.value[i]
  {
    var t := PairText(p);
    forall i | 0 <= i < |t| ensures input[c + 1 + i] == t[i] {
      assert input[c + 1..c + 1 + |t|][i] == t[i];
    }
    assert t[0] == '"' && t[1 + |p.key|] == '"' && t[2 + |p.key|] == ':' && t[3 + |p.key|] == '"';
    assert t[|t| - 1] == '"';
    forall i | 0 <= i < |p.key| ensures input[c + 2 + i] == p.key[i] {
      assert t[1 + i] == p.key[i];
    }
    forall i | 0 <= i < |p.value| ensures input[c + 5 + |p.key| + i] == p.value[i] {
      assert t[4 + |p.key| + i] == p.value[i];
    }
  }

  /** A round at c reads the key of a plain member written after c, and
      the value search starts at the value's opening quote. */
  lemma PairKey(input: string, c: int, p: Pair)
    requires PairAt(input, c, p) && PlainPair(p)
    ensures KeyAfter(input, c, p.key, c + 2)
    ensures AfterColon(input, c + 2 + |p.key|) == c + 4 + |p.key|
  {
    PairChars(input, c, p);
    assert input[c + 2..c + 2 + |p.key|] == p.key;
    assert FindFirstOf(input, {':'}, c + 3 + |p.key|) == c + 3 + |p.key|;
  }

  /** The value of a plain member ends at its closing quote. */
  lemma PairValue(input: string, c: int, p: Pair)
    requires PairAt(input, c, p) && PlainPair(p)
    ensures ValueFrom(input, AfterColon(input, c + 2 + |p.key|), c + |PairText(p)|, false)
  {
    PairKey(input, c, p);
    PairChars(input, c, p);
    var vo, e := c + 4 + |p.key|, c + |PairText(p)|;
    assert FindFirstOf(input, {'{', ',', '"'}, vo) == vo;
    assert input[e - 1] != '\\' by {
      if |p.value| > 0 {
        assert input[e - 1] == p.value[|p.value| - 1];
      }
    }
    forall j | vo < j < e ensures !UnescapedQuote(input, j) {
      assert input[j] == p.value[j - vo - 1];
    }
    assert FirstUnescapedAfter(input, vo, e);
  }

  /** Members followed by the closing brace: the first member, then a comma
      and the others, or the brace. */
  lemma FlatText(input: string, c: nat, rest: seq<Pair>)
    requires |rest| >= 1 && c < |input| && input[c + 1..] == Members(rest) + ['}']
    ensures PairAt(input, c, rest[0])
    ensures input[c + 1 + |PairText(rest[0])|] == if |rest| == 1 then '}' else ','
    ensures |rest| > 1 ==> input[c + |PairText(rest[0])| + 2..] == Members(rest[1..]) + ['}']
  {
    var t := PairText(rest[0]);
    var tail := if |rest| == 1 then ['}'] else [','] + Members(rest[1..]) + ['}'];
    assert input[c + 1..] == t + tail;
    forall i | 0 <= i < |t| + |tail| ensures input[c + 1 + i] == (t + tail)[i] {
      assert input[c + 1..][i] == (t + tail)[i];
    }
    assert input[c + 1..c + 1 + |t|] == t;
    assert input[c + 1 + |t|] == tail[0];
    if |rest| > 1 {
      assert input[c + |t| + 2..] == tail[1..];
    }
  }

  /** A round at c reads a plain member written after c: its key, and a
      value that ends at the member's last quote. */
  lemma PairRound(input: string, c: int, p: Pair, round: Round)
    requires PairAt(input, c, p) && PlainPair(p)
    ensures RoundAt(input, c, round) ==> round == Read(p.key, c + 2, c + |PairText(p)|, false)
  {
    PairKey(input, c, p);
    PairValue(input, c, p);
    RoundAtRead(input, c, round, p.key, c + 2, c + |PairText(p)|, false);
  }

  /** A map that starts all false, and an input that is a flat object of
      plain members with a key for every name of the map. */
  ghost predicate FlatCovering(fieldList: Fields, input: string) {
    && (forall i :: 0 <= i < |fieldList| ==> !fieldList[i].seen)
    && exists ps :: FlatObjectCovering(input, ps, Names(fieldList))
  }

  /** The cursor is followed by the members not read yet, at least one, and
      the closing brace. */
  ghost predicate FlatAt(input: string, cp: int, rest: seq<Pair>) {
    && |rest| >= 1 && (forall i :: 0 <= i < |rest| ==> PlainPair(rest[i]))
    && 0 <= cp < |input| && input[cp + 1..] == Members(rest) + ['}']
  }

  /** A map that starts all false, and a flat object whose keys miss some
      of its names. */
  ghost predicate FlatMissingWith(fieldList: Fields, input: string, ps: seq<Pair>) {
    && (forall i :: 0 <= i < |fieldList| ==> !fieldList[i].seen)
    && FlatObject(input, ps) && !(Names(fieldList) <= Keys(ps))
  }

  /** The map with the entry named `key`, if any, marked. */
  function MarkName(fields: Fields, key: string): Fields {
    if fields == [] then []
    else [Entry(fields[0].name, fields[0].seen || fields[0].name == key)] + MarkName(fields[1..], key)
  }

  /** Marking a name keeps every entry's name and sets the flag of the
      entries with that name. */
  lemma {:induction false} MarkNameEntries(fields: Fields, key: string)
    ensures |MarkName(fields, key)| == |fields|
    ensures forall j :: 0 <= j < |fields| ==>
              MarkName(fields, key)[j] == Entry(fields[j].name, fields[j].seen || fields[j].name == key)
  {
    if fields != [] {
      MarkNameEntries(fields[1..], key);
    }
  }

  /** The map after marking the keys of the first k members, in order. */
  function MarkMembers(fields: Fields, ps: seq<Pair>, k: nat): Fields
    requires k <= |ps|
  {
    if k == 0 then fields else MarkName(MarkMembers(fields, ps, k - 1), ps[k - 1].key)
  }

  /** After the first k members an entry is marked exactly when it was
      marked before or its name is the key of one of them. */
  lemma {:induction false} MarkMembersEntries(fields: Fields, ps: seq<Pair>, k: nat)
    requires k <= |ps|
    ensures |MarkMembers(fields, ps, k)| == |fields|
    ensures forall j :: 0 <= j < |fields| ==>
              && MarkMembers(fields, ps, k)[j].name == fields[j].name
              && (MarkMembers(fields, ps, k)[j].seen <==>
                    fields[j].seen || exists m :: 0 <= m < k && ps[m].key == fields[j].name)
  {
    if k > 0 {
      MarkMembersEntries(fields, ps, k - 1);
      MarkNameEntries(MarkMembers(fields, ps, k - 1), ps[k - 1].key);
    }
  }

  /** On a flat object the round at the cursor reads the first remaining
      member, and the separator after it closes the object exactly when no
      member follows. */
  lemma FlatRoundIs(input: string, cp: nat, rest: seq<Pair>, round: Round)
    requires FlatAt(input, cp, rest) && RoundAt(input, cp, round)
    ensures round == Read(rest[0].key, cp + 2, cp + |PairText(rest[0])|, false)
    ensures FindFirstOf(input, {',', '}'}, round.valueEnd + 1) == round.valueEnd + 1
    ensures input[round.valueEnd + 1] == '}' <==> |rest| == 1
    ensures |rest| > 1 ==> FlatAt(input, round.valueEnd + 1, rest[1..])
  {
    FlatText(input, cp, rest);
    PairRound(input, cp, rest[0], round);
  }

  /** `fields.find(field)`: an unmarked key is marked and taken off
      `fields_remain`; a missing or marked one changes nothing. */
  method MarkKey(fieldList: Fields, input: string, fields: Fields, remain: nat, field: string, start: int)
    returns (fieldsAfter: Fields, remainAfter: nat, marked: bool)
    requires Ordered(fieldList) && MarksFrom(fieldList, fields, input) && QuotedAt(input, field, start)
    requires remain == |fields| - SeenCount(fields) + SeenCount(fieldList)
    ensures MarksFrom(fieldList, fieldsAfter, input)
    ensures remainAfter == |fieldsAfter| - SeenCount(fieldsAfter) + SeenCount(fieldList)
    ensures forall j :: 0 <= j < |fieldsAfter| ==> fieldsAfter[j].seen == (fields[j].seen || fields[j].name == field)
    ensures marked <==> exists j :: 0 <= j < |fields| && fields[j].name == field && !fields[j].seen
    ensures marked ==> remainAfter == remain - 1
    ensures !marked ==> remainAfter == remain && fieldsAfter == fields
    ensures fieldsAfter == MarkName(fields, field)
  {
    assert Ordered(fields);
    var i := IndexOf(fields, field);
    marked := i != -1 && !fields[i].seen;
    fieldsAfter, remainAfter := fields, remain;
    if marked {
      MarkOne(fieldList, fields, input, i, start);
      remainAfter := remain - 1;
      fieldsAfter := fields[i := Entry(field, true)];
    }
    forall j | 0 <= j < |fields| && fields[j].name == field
      ensures j == i
    {
      OrderedUnique(fields, i, j);
    }
    MarkNameEntries(fields, field);
  }

  /** A flat object's text is followed, after its brace at position 0, by
      its members. */
  lemma FlatObjectAt(input: string, ps: seq<Pair>)
    requires FlatObject(input, ps)
    ensures FindFirstOf(input, {'{'}, 0) == 0 && FlatAt(input, 0, ps)
  {
    assert input[0] == '{' && input[1..] == Members(ps) + ['}'];
  }

  /** Where the scan of a flat object stands before member k: at the brace,
      then at the comma after each member. */
  function MemberStart(ps: seq<Pair>, k: nat): (c: nat)
    requires k <= |ps|
    ensures k > 0 ==> c > MemberStart(ps, k - 1)
  {
    if k == 0 then 0 else MemberStart(ps, k - 1) + |PairText(ps[k - 1])| + 1
  }

  /** The scan of the flat object ps stands before member k, at cursor cp. */
  ghost predicate FlatCursor(input: string, ps: seq<Pair>, k: nat, cp: int) {
    FlatObject(input, ps) && k < |ps| && cp == MemberStart(ps, k)
  }

  /** Member k and those after it follow its start. */
  lemma {:induction false} FlatAtMember(input: string, ps: seq<Pair>, k: nat)
    requires FlatObject(input, ps) && k < |ps|
    ensures FlatAt(input, MemberStart(ps, k), ps[k..])
  {
    if k == 0 {
      FlatObjectAt(input, ps);
    } else {
      FlatAtMember(input, ps, k - 1);
      FlatText(input, MemberStart(ps, k - 1), ps[k - 1..]);
      assert ps[k - 1..][1..] == ps[k..];
    }
  }

  /** On a flat object the round before member k reads that member's key
      and string value, and the separator after it is the comma or brace
      before the next member: the brace exactly after the last member. */
  lemma FlatRoundAt(input: string, ps: seq<Pair>, k: nat, cp: nat, round: Round)
    ensures FlatCursor(input, ps, k, cp) && RoundAt(input, cp, round) ==>
              && round == Read(ps[k].key, cp + 2, cp + |PairText(ps[k])|, false)
              && FindFirstOf(input, {',', '}'}, round.valueEnd + 1) == MemberStart(ps, k + 1) < |input|
              && (input[MemberStart(ps, k + 1)] == '}' <==> k + 1 == |ps|)
  {
    if FlatCursor(input, ps, k, cp) && RoundAt(input, cp, round) {
      FlatAtMember(input, ps, k);
      FlatRoundIs(input, cp, ps[k..], round);
    }
  }

  /** The plain member written after a position is determined by the text. */
  lemma PairUnique(input: string, c: int, p1: Pair, p2: Pair)
    requires PairAt(input, c, p1) && PlainPair(p1)
    requires PairAt(input, c, p2) && PlainPair(p2)
    ensures p1 == p2
  {
    PairKey(input, c, p1);
    PairKey(input, c, p2);
    KeyAfterUnique(input, c, p1.key, c + 2, p2.key, c + 2);
    PairValue(input, c, p1);
    PairValue(input, c, p2);
    ValueFromUnique(input, AfterColon(input, c + 2 + |p1.key|), c + |PairText(p1)|, false, c + |PairText(p2)|, false);
    PairChars(input, c, p1);
    PairChars(input, c, p2);
    assert p1.value == p2.value;
  }

  /** The members that follow a cursor are determined by the text. */
  lemma {:induction false} FlatUnique(input: string, c: nat, ps1: seq<Pair>, ps2: seq<Pair>)
    requires FlatAt(input, c, ps1) && FlatAt(input, c, ps2)
    ensures ps1 == ps2
    decreases |ps1|
  {
    var p1, p2 := ps1[0], ps2[0];
    FlatText(input, c, ps1);
    FlatText(input, c, ps2);
    PairUnique(input, c, p1, p2);
    if |ps1| > 1 {
      FlatUnique(input, c + |PairText(p1)| + 1, ps1[1..], ps2[1..]);
      assert ps1 == [p1] + ps1[1..] && ps2 == [p2] + ps2[1..];
    }
  }

  /** A scan of a flat object starts at its brace, at position 0, with no
      member read and nothing marked. */
  lemma FlatStart(input: string, ps: seq<Pair>, fieldList: Fields)
    requires FlatObject(input, ps)
    requires forall i :: 0 <= i < |fieldList| ==> !fieldList[i].seen
    ensures FindFirstOf(input, {'{'}, 0) == 0
    ensures SeenCount(fieldList) == 0
  {
    FlatObjectAt(input, ps);
    SeenCountZero(fieldList);
  }

  /** A scan of a flat object that marked every name of the map with keys
      of its members: the keys cover the map. */
  lemma FlatCompleteEnd(fieldList: Fields, input: string, fields: Fields, ps0: seq<Pair>, k: nat)
    requires FlatObject(input, ps0) && MarksFrom(fieldList, fields, input)
    requires k <= |ps0| && fields == MarkMembers(fieldList, ps0, k)
    requires forall i :: 0 <= i < |fieldList| ==> !fieldList[i].seen
    requires forall i :: 0 <= i < |fields| ==> fields[i].seen
    ensures forall ps :: !FlatMissingWith(fieldList, input, ps)
  {
    MarkMembersEntries(fieldList, ps0, k);
    forall ps | FlatObject(input, ps) ensures Names(fieldList) <= Keys(ps) {
      FlatObjectAt(input, ps);
      FlatObjectAt(input, ps0);
      FlatUnique(input, 0, ps, ps0);
      forall w | w in Names(fieldList) ensures w in Keys(ps) {
        var i :| 0 <= i < |fieldList| && fieldList[i].name == w;
        assert fields[i].name == w;
        var m :| 0 <= m < k && ps0[m].key == w;
      }
    }
  }

  /** A scan of a flat object that read all its members with names left
      unmarked: those names are exactly the names that are not keys. */
  lemma FlatMissingEnd(fieldList: Fields, input: string, fields: Fields, ps0: seq<Pair>, unseen: seq<string>)
    requires FlatObject(input, ps0) && fields == MarkMembers(fieldList, ps0, |ps0|)
    requires forall i :: 0 <= i < |fieldList| ==> !fieldList[i].seen
    requires unseen == UnseenNames(fields)
    ensures forall ps :: FlatObject(input, ps) ==>
              forall w :: w in unseen <==> w in Names(fieldList) && w !in Keys(ps)
    ensures |unseen| > 0 ==> !FlatCovering(fieldList, input)
  {
    UnseenNamesMembers(fields);
    MarkMembersEntries(fieldList, ps0, |ps0|);
    forall ps | FlatObject(input, ps) ensures ps == ps0 {
      FlatObjectAt(input, ps);
      FlatObjectAt(input, ps0);
      FlatUnique(input, 0, ps, ps0);
    }
    forall w ensures w in unseen <==> w in Names(fieldList) && w !in Keys(ps0) {
      if w in Names(fieldList) {
        var i :| 0 <= i < |fieldList| && fieldList[i].name == w;
        assert fields[i].name == w;
      }
    }
    if |unseen| > 0 {
      var w := unseen[0];
      forall ps | FlatObject(input, ps) ensures !(Names(fieldList) <= Keys(ps)) {
        assert w in unseen;
      }
    }
  }

  /** How a round ends: the scan stops with an outcome, or goes on from the
      separator at `next`, having marked a key for the first time or not. */
  datatype Step = Stop(o: Outcome) | Next(next: nat, marked: bool)

  /** One round of the loop: read the key and skip its value, mark the key
      when the map holds it unmarked, then find the separator; a `}` there
      with keys still unmarked ends the scan. */
  method ScanRound(fieldList: Fields, input: string, fields: Fields, cp: nat, remain: nat,
                   ghost ps: seq<Pair>, ghost k: nat)
    returns (step: Step, fieldsAfter: Fields, remainAfter: nat, round: Round)
    requires Ordered(fieldList) && cp < |input| && remain != 0
    requires MarksFrom(fieldList, fields, input)
    requires remain == |fields| - SeenCount(fields) + SeenCount(fieldList)
    ensures MarksFrom(fieldList, fieldsAfter, input)
    ensures remainAfter == |fieldsAfter| - SeenCount(fieldsAfter) + SeenCount(fieldList)
    ensures step.Stop? ==> !step.o.NoOpenBrace? && !step.o.Complete? && !step.o.Cycles?
    // the round read at cp (one per cursor, RoundAtUnique) decides the step
    ensures RoundAt(input, cp, round)
    ensures step == Stop(ExpectedQuote) <==> round == NoKey
    ensures step == Stop(ReachedBrace) <==> round.Read? && round.isObject
    ensures step == Stop(OutOfRange) <==>
              round.Read? && !round.isObject && NextSeparator(input, round.valueEnd) == NPOS
    ensures step.Next? ==> round.Read? && !round.isObject && step.next == NextSeparator(input, round.valueEnd)
    ensures (step.Stop? && step.o.Missing?) <==>
              (round.Read? && !round.isObject && NextSeparator(input, round.valueEnd) != NPOS
               && input[NextSeparator(input, round.valueEnd)] == '}' && remainAfter != 0)
    // a round that reads a key and a string value marks that key
    ensures round.Read? && !round.isObject && round.valueEnd != NPOS ==> fieldsAfter == MarkName(fields, round.field)
    ensures step.Stop? && step.o.Missing? ==> MissingReport(fieldList, fieldsAfter, input, step.o.remain, step.o.unseen)
    ensures step.Next? ==> step.next < |input| && (remainAfter != 0 ==> input[step.next] == ',')
    ensures step.Next? && step.marked ==> remainAfter == remain - 1
    ensures step.Next? && !step.marked ==> remainAfter == remain && fieldsAfter == fields
    // on a flat object the round reads the next member, marks its key and
    // moves past it; after the last member it ends the scan exactly when
    // names are left unmarked
    ensures FlatCursor(input, ps, k, cp) ==> fieldsAfter == MarkName(fields, ps[k].key)
    ensures FlatCursor(input, ps, k, cp) && (k + 1 < |ps| || remainAfter == 0) ==>
              step.Next? && step.next == MemberStart(ps, k + 1)
    ensures FlatCursor(input, ps, k, cp) && k + 1 == |ps| && remainAfter != 0 ==>
              step.Stop? && step.o.Missing?
  {
    fieldsAfter, remainAfter := fields, remain;
    round := ReadKey(input, cp);
    FlatRoundAt(input, ps, k, cp, round);
    if round == NoKey {
      return Stop(ExpectedQuote), fieldsAfter, remainAfter, round;
    } else if round.valueEnd == NPOS {
      return Stop(OutOfRange), fieldsAfter, remainAfter, round;
    } else if round.isObject {
      return Stop(ReachedBrace), fieldsAfter, remainAfter, round;
    }
    step, fieldsAfter, remainAfter := FinishRound(fieldList, input, fields, remain, round);
  }

  /** The rest of a round that read a key and a value that is not an
      object: mark the key, then find the separator after the value. */
  method FinishRound(fieldList: Fields, input: string, fields: Fields, remain: nat, round: Round)
    returns (step: Step, fieldsAfter: Fields, remainAfter: nat)
    requires Ordered(fieldList) && MarksFrom(fieldList, fields, input)
    requires remain == |fields| - SeenCount(fields) + SeenCount(fieldList)
    requires round.Read? && round.valueEnd >= 0 && QuotedAt(input, round.field, round.start)
    ensures MarksFrom(fieldList, fieldsAfter, input)
    ensures remainAfter == |fieldsAfter| - SeenCount(fieldsAfter) + SeenCount(fieldList)
    ensures fieldsAfter == MarkName(fields, round.field)
    ensures step.Stop? ==> step.o == OutOfRange || step.o.Missing?
    ensures var next := NextSeparator(input, round.valueEnd);
            && (step == Stop(OutOfRange) <==> next == NPOS)
            && (step.Stop? && step.o.Missing? <==> next != NPOS && input[next] == '}' && remainAfter != 0)
            && (step.Next? ==> step.next == next)
    ensures step.Stop? && step.o.Missing? ==> MissingReport(fieldList, fieldsAfter, input, step.o.remain, step.o.unseen)
    ensures step.Next? ==> step.next < |input| && (remainAfter != 0 ==> input[step.next] == ',')
    ensures step.Next? && step.marked ==> remainAfter == remain - 1
    ensures step.Next? && !step.marked ==> remainAfter == remain && fieldsAfter == fields
  {
    var marked;
    fieldsAfter, remainAfter, marked := MarkKey(fieldList, input, fields, remain, round.field, round.start);
    step := AfterValue(fieldList, input, fieldsAfter, remainAfter, round.valueEnd, marked);
  }

  /** The end of a round: the separator search from one past the value's
      end. A `}` with keys still unmarked ends the scan with the "missing"
      report. */
  method AfterValue(fieldList: Fields, input: string, fields: Fields, remain: nat, valueEnd: nat, marked: bool)
    returns (step: Step)
    requires Ordered(fieldList) && MarksFrom(fieldList, fields, input)
    requires remain == |fields| - SeenCount(fields) + SeenCount(fieldList)
    ensures var next := FindFirstOf(input, {',', '}'}, valueEnd + 1);
            && (step == Stop(OutOfRange) <==> next == NPOS)
            && (step.Stop? && step.o.Missing? <==> next != NPOS && input[next] == '}' && remain != 0)
            && (step.Next? ==> step == Next(next, marked))
    ensures step.Stop? ==> step.o == OutOfRange || step.o.Missing?
    ensures step.Next? ==> step.next < |input| && (remain != 0 ==> input[step.next] == ',')
    ensures step.Stop? && step.o.Missing? ==> step.o.remain == remain && MissingReport(fieldList, fields, input, remain, step.o.unseen)
  {
    var next := FindFirstOf(input, {',', '}'}, valueEnd + 1);
    if next == NPOS {
      return Stop(OutOfRange);
    }
    if input[next] == '}' && remain != 0 {
      MissingListing(fieldList, fields, input);
      return Stop(Missing(remain, UnseenNames(fields)));
    }
    return Next(next, marked);
  }

  /** A cursor that only moves forward finds every position from it on still
      unvisited, whether the set was refilled or only lost the old cursor. */
  lemma UnvisitedAhead(before: set<int>, after: set<int>, refilled: bool, cp: int, next: int, n: nat)
    requires forall p :: cp <= p < n ==> p in before
    requires 0 <= cp < next
    requires after == (if refilled then Positions(n) else before - {cp})
    ensures forall p :: next <= p < n ==> p in after
  {
    forall p | next <= p < n ensures p in after {
      if !refilled {
        assert p in before;
      }
    }
  }

  /** The guard's bookkeeping after a round that moved the cursor from cp to
      next: the old cursor is visited, a marking refills the set, and a move
      back or in place is remembered. */
  method Advance(input: string, cp: nat, next: nat, marked: bool, unvisited: set<int>, ghost backward: bool)
    returns (unvisitedAfter: set<int>, ghost backwardAfter: bool)
    requires !backward ==> forall p :: cp <= p < |input| ==> p in unvisited
    ensures marked ==> forall p :: 0 <= p < |input| ==> p in unvisitedAfter
    ensures !marked ==> unvisitedAfter == unvisited - {cp}
    ensures backwardAfter == (backward || next <= cp)
    ensures !backwardAfter ==> forall p :: next <= p < |input| ==> p in unvisitedAfter
  {
    backwardAfter := backward || next <= cp;
    if marked {
      unvisitedAfter := Positions(|input|);
    } else {
      unvisitedAfter := unvisited - {cp};
    }
    if !backwardAfter {
      UnvisitedAhead(unvisited, unvisitedAfter, marked, cp, next, |input|);
    }
  }

  /** Some round, started at a loop-head cursor, reads a key and a string
      value and finds a `}` as the separator after it. */
  ghost predicate BraceAfterValue(input: string) {
    BraceAfterValueFrom(input, FindFirstOf(input, {'{'}, 0))
  }

  /** The same, for a scan that started at `start`. */
  ghost predicate BraceAfterValueFrom(input: string, start: int) {
    exists c, n :: HeadFrom(input, start, c) && SeparatorAt(input, c, n) && 0 <= n < |input| && input[n] == '}'
  }

  /** Some round, started at a loop-head cursor, finds its separator at or
      before that cursor (a search wrapped around through npos + 1 == 0). */
  ghost predicate MovedBack(input: string) {
    MovedBackFrom(input, FindFirstOf(input, {'{'}, 0))
  }

  /** The same, for a scan that started at `start`. */
  ghost predicate MovedBackFrom(input: string, start: int) {
    exists c, n :: HeadFrom(input, start, c) && SeparatorAt(input, c, n) && 0 <= n <= c
  }

  /** The scan. `fields_remain` starts at the map's size and drops by one
      each time a key is marked for the first time. */
  method CheckJsonFields(fieldList: Fields, input: string) returns (o: Outcome, fields: Fields)
    requires Ordered(fieldList)
    // the key set never changes; flags only go from false to true, and only
    // for keys that occur quoted in the input
    ensures MarksFrom(fieldList, fields, input)
    ensures o == NoOpenBrace <==> '{' !in input
    ensures o == NoOpenBrace ==> fields == fieldList
    // a round found no quote after its cursor
    ensures o == ExpectedQuote ==> exists c :: LoopHead(input, c) && NoQuoteAfter(input, c)
    // a round read a key whose value is an object
    ensures o == ReachedBrace ==> exists c :: LoopHead(input, c) && ObjectValueAt(input, c)
    // a search came back npos before the C++ reads at its result
    ensures o == OutOfRange ==> exists c :: LoopHead(input, c) && SeparatorAt(input, c, NPOS)
    // the C++ loop only runs forever once a round has moved the cursor back
    ensures o == Cycles ==> MovedBack(input)
    // success only once every key is marked, each of them found in the input
    ensures o == Complete ==> forall i :: 0 <= i < |fields| ==> fields[i].seen
    ensures o == Complete ==> forall i :: 0 <= i < |fieldList| ==> QuotedIn(input, fieldList[i].name)
    // a `}` ended the scan early: the message counts and lists the unmarked keys
    ensures o.Missing? ==> MissingReport(fieldList, fields, input, o.remain, o.unseen)
    // a `}` after a string value ended a round with keys still unmarked
    ensures o.Missing? ==> BraceAfterValue(input)
    // a flat object of plain string members with a key for every name of a
    // map that starts all false passes
    ensures FlatCovering(fieldList, input) ==> o == Complete
    // one whose keys miss names of such a map is reported with exactly the
    // names that are not keys
    ensures forall ps :: FlatMissingWith(fieldList, input, ps) ==>
              o.Missing? && forall w :: w in o.unseen <==> w in Names(fieldList) && w !in Keys(ps)
  {
    ghost var flat := (forall i :: 0 <= i < |fieldList| ==> !fieldList[i].seen) && exists ps :: FlatObject(input, ps);
    ghost var ps0: seq<Pair> := [];
    if flat {
      ps0 :| FlatObject(input, ps0);
      FlatStart(input, ps0, fieldList);
    }
    fields := fieldList;
    var cp := FindFirstOf(input, {'{'}, 0);
    if cp == NPOS {
      return NoOpenBrace, fields;
    }
    ghost var k;
    o, fields, k := ScanFrom(fieldList, input, cp, flat, ps0);
    if flat {
      if o.Missing? {
        FlatMissingEnd(fieldList, input, fields, ps0, o.unseen);
      } else {
        FlatCompleteEnd(fieldList, input, fields, ps0, k);
      }
    }
  }

  /** One pass of the loop at an unvisited cursor cp: a round, and the
      guard's bookkeeping. It either ends the scan or hands the next pass
      its cursor, map, count and guard state. */
  method Visit(fieldList: Fields, input: string, start: nat, fields: Fields, cp: nat, remain: nat,
               unvisited: set<int>, ghost backward: bool, ghost flat: bool, ghost ps0: seq<Pair>, ghost k: nat)
    returns (step: Step, fieldsAfter: Fields, remainAfter: nat, unvisitedAfter: set<int>,
             ghost backwardAfter: bool, ghost kAfter: nat)
    requires Ordered(fieldList) && HeadFrom(input, start, cp) && remain != 0 && cp in unvisited
    requires MarksFrom(fieldList, fields, input)
    requires remain == |fields| - SeenCount(fields) + SeenCount(fieldList)
    requires flat ==> FlatCursor(input, ps0, k, cp) && fields == MarkMembers(fieldList, ps0, k) && !backward
    requires backward ==> MovedBackFrom(input, start)
    requires !backward ==> forall p :: cp <= p < |input| ==> p in unvisited
    ensures MarksFrom(fieldList, fieldsAfter, input)
    ensures remainAfter == |fieldsAfter| - SeenCount(fieldsAfter) + SeenCount(fieldList)
    ensures step.Stop? ==> !step.o.NoOpenBrace? && !step.o.Complete? && !step.o.Cycles?
    ensures step == Stop(ExpectedQuote) ==> exists c :: HeadFrom(input, start, c) && NoQuoteAfter(input, c)
    ensures step == Stop(ReachedBrace) ==> exists c :: HeadFrom(input, start, c) && ObjectValueAt(input, c)
    ensures step == Stop(OutOfRange) ==> exists c :: HeadFrom(input, start, c) && SeparatorAt(input, c, NPOS)
    ensures step.Stop? && step.o.Missing? ==> MissingReport(fieldList, fieldsAfter, input, step.o.remain, step.o.unseen)
    ensures step.Stop? && step.o.Missing? ==> BraceAfterValueFrom(input, start)
    ensures flat && step.Stop? ==> step.o.Missing? && fieldsAfter == MarkMembers(fieldList, ps0, |ps0|)
    ensures step.Next? ==> step.next < |input| && (remainAfter != 0 ==> HeadFrom(input, start, step.next))
    ensures step.Next? ==> remainAfter < remain || (remainAfter == remain && unvisitedAfter < unvisited)
    ensures flat && step.Next? ==> kAfter == k + 1 <= |ps0| && fieldsAfter == MarkMembers(fieldList, ps0, kAfter)
    ensures flat && step.Next? && remainAfter != 0 ==> FlatCursor(input, ps0, kAfter, step.next)
    ensures flat ==> !backwardAfter
    ensures backwardAfter ==> MovedBackFrom(input, start)
    ensures step.Next? && !backwardAfter ==> forall p :: step.next <= p < |input| ==> p in unvisitedAfter
  {
    var round;
    step, fieldsAfter, remainAfter, round := ScanRound(fieldList, input, fields, cp, remain, ps0, k);
    if step.Stop? {
      StopJustified(input, start, cp, round, step.o);
      unvisitedAfter, backwardAfter, kAfter := unvisited, backward, k;
      return;
    }
    unvisitedAfter, backwardAfter, kAfter :=
      PassOn(input, start, fieldList, fields, cp, remain, unvisited, backward, flat, ps0, k,
             step, fieldsAfter, remainAfter, round);
  }

  /** A stop of the round at a loop-head cursor cp, justified by what that
      round read. */
  lemma StopJustified(input: string, start: int, cp: int, round: Round, o: Outcome)
    requires HeadFrom(input, start, cp) && RoundAt(input, cp, round)
    requires o == ExpectedQuote ==> round == NoKey
    requires o == ReachedBrace ==> round.Read? && round.isObject
    requires o == OutOfRange ==> round.Read? && !round.isObject && NextSeparator(input, round.valueEnd) == NPOS
    requires o.Missing? ==>
               round.Read? && !round.isObject && NextSeparator(input, round.valueEnd) != NPOS
               && input[NextSeparator(input, round.valueEnd)] == '}'
    ensures o == ExpectedQuote ==> exists c :: HeadFrom(input, start, c) && NoQuoteAfter(input, c)
    ensures o == ReachedBrace ==> exists c :: HeadFrom(input, start, c) && ObjectValueAt(input, c)
    ensures o == OutOfRange ==> exists c :: HeadFrom(input, start, c) && SeparatorAt(input, c, NPOS)
    ensures o.Missing? ==> BraceAfterValueFrom(input, start)
  {
    if o == ExpectedQuote {
      assert HeadFrom(input, start, cp) && NoQuoteAfter(input, cp);
    } else if o == ReachedBrace {
      assert HeadFrom(input, start, cp) && ObjectValueAt(input, cp);
    } else if o == OutOfRange {
      assert HeadFrom(input, start, cp) && SeparatorAt(input, cp, NPOS);
    } else if o.Missing? {
      assert HeadFrom(input, start, cp) && SeparatorAt(input, cp, NextSeparator(input, round.valueEnd));
    }
  }

  /** On a flat object a pass that goes on has read member k: the map holds
      the marks of the first k + 1 members, and the cursor moves forward to
      the next member's start. */
  lemma FlatPassOn(input: string, fieldList: Fields, ps0: seq<Pair>, k: nat, cp: nat,
                   fields: Fields, fieldsAfter: Fields, next: int, remainAfter: nat)
    requires FlatCursor(input, ps0, k, cp) && fields == MarkMembers(fieldList, ps0, k)
    requires fieldsAfter == MarkName(fields, ps0[k].key)
    requires (k + 1 < |ps0| || remainAfter == 0) ==> next == MemberStart(ps0, k + 1)
    requires k + 1 == |ps0| ==> remainAfter == 0
    ensures k + 1 <= |ps0| && fieldsAfter == MarkMembers(fieldList, ps0, k + 1)
    ensures cp < next
    ensures remainAfter != 0 ==> FlatCursor(input, ps0, k + 1, next)
  {
  }

  /** The guard's side of a pass that goes on from cursor cp to the
      separator its round found: the bookkeeping of Advance, and on a flat
      object the step to the next member. */
  method PassOn(input: string, start: nat, fieldList: Fields, fields: Fields, cp: nat, remain: nat,
                unvisited: set<int>, ghost backward: bool, ghost flat: bool, ghost ps0: seq<Pair>, ghost k: nat,
                step: Step, fieldsAfter: Fields, remainAfter: nat, ghost round: Round)
    returns (unvisitedAfter: set<int>, ghost backwardAfter: bool, ghost kAfter: nat)
    requires HeadFrom(input, start, cp) && cp in unvisited && RoundAt(input, cp, round)
    requires flat ==> FlatCursor(input, ps0, k, cp) && fields == MarkMembers(fieldList, ps0, k) && !backward
    requires backward ==> MovedBackFrom(input, start)
    requires !backward ==> forall p :: cp <= p < |input| ==> p in unvisited
    requires step.Next? && round.Read? && !round.isObject && step.next == NextSeparator(input, round.valueEnd)
    requires step.next < |input| && (remainAfter != 0 ==> input[step.next] == ',')
    requires step.marked ==> remainAfter == remain - 1
    requires !step.marked ==> remainAfter == remain
    requires flat ==> fieldsAfter == MarkName(fields, ps0[k].key)
    requires flat && (k + 1 < |ps0| || remainAfter == 0) ==> step.next == MemberStart(ps0, k + 1)
    requires flat && k + 1 == |ps0| ==> remainAfter == 0
    ensures remainAfter != 0 ==> HeadFrom(input, start, step.next)
    ensures remainAfter < remain || (remainAfter == remain && unvisitedAfter < unvisited)
    ensures flat ==> kAfter == k + 1 <= |ps0| && fieldsAfter == MarkMembers(fieldList, ps0, kAfter)
    ensures flat && remainAfter != 0 ==> FlatCursor(input, ps0, kAfter, step.next)
    ensures flat ==> !backwardAfter
    ensures backwardAfter ==> MovedBackFrom(input, start)
    ensures !backwardAfter ==> forall p :: step.next <= p < |input| ==> p in unvisitedAfter
  {
    kAfter := k;
    if flat {
      FlatPassOn(input, fieldList, ps0, k, cp, fields, fieldsAfter, step.next, remainAfter);
    }
    if step.next <= cp {
      assert HeadFrom(input, start, cp) && SeparatorAt(input, cp, step.next);
    }
    unvisitedAfter, backwardAfter := Advance(input, cp, step.next, step.marked, unvisited, backward);
    if flat {
      kAfter := k + 1;
    }
  }

  /** The loop, from the first `{` on. `remain` is `fields_remain`.
      `unvisited` is not in the C++: it holds the loop-head cursors not met
      since the last marking, so that a repeated loop-head state (the C++
      loops forever) is reported as Cycles instead. On a flat object, `k`
      counts the members read so far. */
  method ScanFrom(fieldList: Fields, input: string, start: nat, ghost flat: bool, ghost ps0: seq<Pair>)
    returns (o: Outcome, fields: Fields, ghost k: nat)
    requires Ordered(fieldList) && start < |input|
    requires flat ==> SeenCount(fieldList) == 0 && FlatObject(input, ps0) && start == 0
    ensures MarksFrom(fieldList, fields, input)
    ensures !o.NoOpenBrace?
    ensures o == ExpectedQuote ==> exists c :: HeadFrom(input, start, c) && NoQuoteAfter(input, c)
    ensures o == ReachedBrace ==> exists c :: HeadFrom(input, start, c) && ObjectValueAt(input, c)
    ensures o == OutOfRange ==> exists c :: HeadFrom(input, start, c) && SeparatorAt(input, c, NPOS)
    ensures o == Cycles ==> MovedBackFrom(input, start)
    ensures o == Complete ==> forall i :: 0 <= i < |fields| ==> fields[i].seen
    ensures o == Complete ==> forall i :: 0 <= i < |fieldList| ==> QuotedIn(input, fieldList[i].name)
    ensures o.Missing? ==> MissingReport(fieldList, fields, input, o.remain, o.unseen)
    ensures o.Missing? ==> BraceAfterValueFrom(input, start)
    // on a flat object the scan marks keys of its members only, and ends
    // early only once all of them are read
    ensures flat ==> o == Complete || o.Missing?
    ensures flat && o == Complete ==> k <= |ps0| && fields == MarkMembers(fieldList, ps0, k)
    ensures flat && o.Missing? ==> fields == MarkMembers(fieldList, ps0, |ps0|)
  {
    fields := fieldList;
    var cp := start;
    var remain := |fieldList|;
    var unvisited := Positions(|input|);
    ghost var backward := false;
    k := 0;
    while remain != 0
      invariant 0 <= cp < |input|
      invariant remain != 0 ==> HeadFrom(input, start, cp)
      invariant MarksFrom(fieldList, fields, input)
      invariant remain == |fields| - SeenCount(fields) + SeenCount(fieldList)
      invariant flat ==> k <= |ps0| && fields == MarkMembers(fieldList, ps0, k)
      invariant flat && remain != 0 ==> FlatCursor(input, ps0, k, cp)
      invariant flat ==> !backward
      invariant backward ==> MovedBackFrom(input, start)
      invariant !backward ==> forall p :: cp <= p < |input| ==> p in unvisited
      decreases remain, unvisited
    {
      if cp !in unvisited {
        return Cycles, fields, k;
      }
      var step;
      step, fields, remain, unvisited, backward, k :=
        Visit(fieldList, input, start, fields, cp, remain, unvisited, backward, flat, ps0, k);
      if step.Stop? {
        return step.o, fields, k;
      }
      cp := step.next;
    }
    AllMarked(fieldList, fields, input);
    o := Complete;
  }
}

=== FILE: Registry.dfy ===
/** The tokensmaster contract: a registry of use cases, each with its own
    table of submitted tokens that the use case's manager approves or
    rejects. Every action is atomic: a failed check leaves both tables as
    they were. */
module Registry {
  import opened CppString
  import opened FieldMap
  import opened RequiredFields
  import opened JsonScan

  /** An eosio name (account, use case, contract), in its to_string() form. */
  type Name = string

  /** A symbol_code, in its to_string() form. */
  type SymbolCode = string

  /** symbol_code::is_valid(): one to seven upper-case letters. */
  predicate ValidSymbolCode(sym: SymbolCode) {
    1 <= |sym| <= 7 && forall i :: 0 <= i < |sym| ==> 'A' <= sym[i] <= 'Z'
  }

  /** A row of the use-case table, keyed by `usecase`. */
  datatype UseCase = UseCase(
    usecase: Name,
    manager: Name,
    uniqueSymbols: bool,
    allowedChain: string,
    requiredFields: string)

  /** A row of a use case's token table, keyed by `id`. */
  datatype Token = Token(
    id: nat,
    submitter: Name,
    usecase: Name,
    contract: Name,
    symbolcode: SymbolCode,
    chainName: string,
    json: string,
    approved: bool)

  /** The key of the signature index. The table stores a sha256 of this
      string; the hash is taken to be injective, so the string stands for it. */
  function Signature(submitter: Name, usecase: Name, chain: string, contract: Name, symbolcode: SymbolCode): string {
    submitter + usecase + chain + contract + symbolcode
  }

  function RowSignature(t: Token): string {
    Signature(t.submitter, t.usecase, t.chainName, t.contract, t.symbolcode)
  }

  /** A lookup in the signature index: the first row in primary-key order
      whose signature matches, or -1 when there is none. */
  function FindSignature(rows: seq<Token>, sig: string): (k: int)
    ensures -1 <= k < |rows|
    ensures k == -1 <==> forall i :: 0 <= i < |rows| ==> RowSignature(rows[i]) != sig
    ensures k >= 0 ==> RowSignature(rows[k]) == sig
    ensures k >= 0 ==> forall i :: 0 <= i < k ==> RowSignature(rows[i]) != sig
  {
    if rows == [] then -1
    else if RowSignature(rows[0]) == sig then 0
    else
      var k := FindSignature(rows[1..], sig);
      assert forall i :: 0 < i < |rows| ==> rows[i] == rows[1..][i - 1];
      if k == -1 then -1 else k + 1
  }

  /** A lookup in the symbol-code index finds a row. */
  predicate HasSymbol(rows: seq<Token>, sym: SymbolCode) {
    exists i :: 0 <= i < |rows| && rows[i].symbolcode == sym
  }

  /** Row t is already approved for this symbol, contract, use case and chain. */
  predicate Blocks(t: Token, usecase: Name, chain: string, contract: Name, sym: SymbolCode) {
    t.symbolcode == sym && t.contract == contract && t.usecase == usecase && t.chainName == chain && t.approved
  }

  /** "cannot overwrite existing token": some row blocks the approval. */
  predicate ApprovalBlocked(rows: seq<Token>, usecase: Name, chain: string, contract: Name, sym: SymbolCode) {
    exists i :: 0 <= i < |rows| && Blocks(rows[i], usecase, chain, contract, sym)
  }

  /** available_primary_key(): one past the last (largest) id, 0 when empty. */
  function NextId(rows: seq<Token>): nat {
    if rows == [] then 0 else rows[|rows| - 1].id + 1
  }

  /** Rows are kept in primary-key order. */
  predicate IdsIncreasing(rows: seq<Token>) {
    forall i, j :: 0 <= i < j < |rows| ==> rows[i].id < rows[j].id
  }

  predicate SignaturesDistinct(rows: seq<Token>) {
    forall i, j :: 0 <= i < j < |rows| ==> RowSignature(rows[i]) != RowSignature(rows[j])
  }

  /** What every token table keeps: ids in order, one row per signature,
      every row in the table of its own use case. */
  predicate TableValid(usecase: Name, rows: seq<Token>) {
    IdsIncreasing(rows) && SignaturesDistinct(rows) && forall i :: 0 <= i < |rows| ==> rows[i].usecase == usecase
  }

  /** The id `submittoken` hands out is larger than every id in the table. */
  lemma NextIdIsFresh(rows: seq<Token>)
    requires IdsIncreasing(rows)
    ensures forall i :: 0 <= i < |rows| ==> rows[i].id < NextId(rows)
  {
    forall i | 0 <= i < |rows| ensures rows[i].id < NextId(rows) {
      if i < |rows| - 1 { assert rows[i].id < rows[|rows| - 1].id; }
    }
  }

  /** Appending a row with a fresh id and an unused signature keeps the table valid. */
  lemma AppendKeepsTableValid(usecase: Name, rows: seq<Token>, t: Token)
    requires TableValid(usecase, rows)
    requires t.id == NextId(rows) && t.usecase == usecase
    requires FindSignature(rows, RowSignature(t)) == -1
    ensures TableValid(usecase, rows + [t])
  {
    NextIdIsFresh(rows);
  }

  /** Setting the approved flag of one row keeps the table valid. */
  lemma ApproveKeepsTableValid(usecase: Name, rows: seq<Token>, k: nat)
    requires TableValid(usecase, rows) && k < |rows|
    ensures TableValid(usecase, rows[k := rows[k].(approved := true)])
  {
    var rows' := rows[k := rows[k].(approved := true)];
    assert forall i :: 0 <= i < |rows| ==> RowSignature(rows'[i]) == RowSignature(rows[i]) && rows'[i].id == rows[i].id;
  }

  /** Erasing one row keeps the table valid. */
  lemma EraseKeepsTableValid(usecase: Name, rows: seq<Token>, k: nat)
    requires TableValid(usecase, rows) && k < |rows|
    ensures TableValid(usecase, rows[..k] + rows[k + 1..])
  {
    var rows' := rows[..k] + rows[k + 1..];
    assert forall i :: 0 <= i < |rows'| ==> rows'[i] == if i < k then rows[i] else rows[i + 1];
  }

  /** A submission whose signature is already in the table is refused, so
      after a successful `submittoken` the same call fails. */
  lemma SubmittedRowIsFound(rows: seq<Token>, t: Token)
    ensures FindSignature(rows + [t], RowSignature(t)) != -1
  {
    assert (rows + [t])[|rows|] == t;
  }

  /** At most one approved row per symbol, contract, use case and chain. */
  predicate ApprovedUnique(rows: seq<Token>) {
    forall i, j :: 0 <= i < j < |rows| && rows[i].approved && rows[j].approved ==>
      !Blocks(rows[j], rows[i].usecase, rows[i].chainName, rows[i].contract, rows[i].symbolcode)
  }

  /** Approving a row under its own symbol, contract, use case and chain
      after the guard passed keeps approvals unique. */
  lemma ApproveKeepsApprovedUnique(rows: seq<Token>, k: nat)
    requires ApprovedUnique(rows) && k < |rows|
    requires !ApprovalBlocked(rows, rows[k].usecase, rows[k].chainName, rows[k].contract, rows[k].symbolcode)
    ensures ApprovedUnique(rows[k := rows[k].(approved := true)])
  {
    var t := rows[k];
    var rows' := rows[k := t.(approved := true)];
    forall i, j | 0 <= i < j < |rows'| && rows'[i].approved && rows'[j].approved
      ensures !Blocks(rows'[j], rows'[i].usecase, rows'[i].chainName, rows'[i].contract, rows'[i].symbolcode)
    {
      if i == k {
        assert !Blocks(rows[j], t.usecase, t.chainName, t.contract, t.symbolcode);
      } else if j == k {
        assert !Blocks(rows[i], t.usecase, t.chainName, t.contract, t.symbolcode);
      }
    }
  }

  /** Approval is not idempotent: once a row is approved it blocks any
      approval under its own symbol, contract, use case and chain,
      including its own second approval. */
  lemma ApprovedRowBlocksItself(rows: seq<Token>, k: nat)
    requires k < |rows|
    ensures var t := rows[k];
            ApprovalBlocked(rows[k := t.(approved := true)], t.usecase, t.chainName, t.contract, t.symbolcode)
  {
    var t := rows[k];
    assert Blocks(rows[k := t.(approved := true)][k], t.usecase, t.chainName, t.contract, t.symbolcode);
  }

  /** The signature is a bare concatenation, so a chain and a contract that
      split the same text differently give the same signature. The guard of
      `approvetoken` compares the caller's chain and contract, not those of
      the row the signature found, so a second approved row for the same
      token can get through. */
  lemma SignatureSplitSlipsPastGuard()
    ensures var x := Token(0, "alice", "wallet", "token", "SEEDS", "eos", "{}", true);
            var y := Token(1, "bob", "wallet", "token", "SEEDS", "eos", "{}", false);
            var rows := [x, y];
            var k := FindSignature(rows, Signature("bob", "wallet", "eost", "oken", "SEEDS"));
            ApprovedUnique(rows)
            && k == 1
            && !ApprovalBlocked(rows, "wallet", "eost", "oken", "SEEDS")
            && !ApprovedUnique(rows[k := y.(approved := true)])
  {
    var x := Token(0, "alice", "wallet", "token", "SEEDS", "eos", "{}", true);
    var y := Token(1, "bob", "wallet", "token", "SEEDS", "eos", "{}", false);
    var rows := [x, y];
    assert RowSignature(x) != Signature("bob", "wallet", "eost", "oken", "SEEDS") by {
      assert RowSignature(x)[0] == 'a';
    }
    assert RowSignature(y) == Signature("bob", "wallet", "eost", "oken", "SEEDS");
    assert !Blocks(x, "wallet", "eost", "oken", "SEEDS") by { assert x.chainName != "eost"; }
    assert !Blocks(y, "wallet", "eost", "oken", "SEEDS");
    var sig := Signature("bob", "wallet", "eost", "oken", "SEEDS");
    assert FindSignature(rows, sig) == 1;
    var rows' := rows[1 := y.(approved := true)];
    assert rows'[0].approved && rows'[1].approved;
    assert Blocks(rows'[1], rows'[0].usecase, rows'[0].chainName, rows'[0].contract, rows'[0].symbolcode);
  }

  /** The JSON check of `submittoken`: the use case's required fields cut
      into a map of unseen keys, which the scan then looks for in the json.
      Success means every required key occurs quoted in the json; a "missing"
      result counts and lists, in key order, the required keys not found. */
  method CheckRequiredFields(required: string, json: string) returns (o: Outcome)
    ensures o == NoOpenBrace <==> '{' !in json
    ensures o == ExpectedQuote ==> exists c :: LoopHead(json, c) && NoQuoteAfter(json, c)
    ensures o == ReachedBrace ==> exists c :: LoopHead(json, c) && ObjectValueAt(json, c)
    ensures o == OutOfRange ==> exists c :: LoopHead(json, c) && SeparatorAt(json, c, NPOS)
    ensures o == Cycles ==> MovedBack(json)
    ensures o.Missing? ==> BraceAfterValue(json)
    ensures o == Complete ==> forall w :: w in FieldNames(required) ==> QuotedIn(json, w)
    ensures o.Missing? ==> 0 < o.remain == |o.unseen|
    ensures o.Missing? ==> forall i, j :: 0 <= i < j < |o.unseen| ==> Less(o.unseen[i], o.unseen[j])
    ensures o.Missing? ==> forall i :: 0 <= i < |o.unseen| ==> o.unseen[i] in FieldNames(required)
    // a flat object of plain string members with a key for every required name passes
    ensures (exists ps :: FlatObjectCovering(json, ps, FieldNames(required))) ==> o == Complete
    // one that lacks some of them is reported with exactly the names that are not keys
    ensures forall ps :: FlatObject(json, ps) && !(FieldNames(required) <= Keys(ps)) ==>
              o.Missing? && forall w :: w in o.unseen <==> w in FieldNames(required) && w !in Keys(ps)
  {
    var fieldList := SplitRequiredFields(required);
    SeenCountZero(fieldList);
    var fields;
    o, fields := CheckJsonFields(fieldList, json);
    if o == Complete {
      forall w | w in FieldNames(required) ensures QuotedIn(json, w) {
        var i :| 0 <= i < |fieldList| && fieldList[i].name == w;
      }
    } else if o.Missing? {
      UnseenNamesMembers(fields);
      forall i | 0 <= i < |o.unseen| ensures o.unseen[i] in FieldNames(required) {
        assert o.unseen[i] in UnseenNames(fields);
        var k :| 0 <= k < |fields| && fields[k].name == o.unseen[i] && !fields[k].seen;
        assert fieldList[k].name == o.unseen[i];
      }
    }
  }

  /** The JSON step of `submittoken`: the scan's message, when not empty,
      is the error; where the scan has no defined result the step fails
      with the matching stand-in error. */
  method CheckSubmittedJson(required: string, json: string) returns (r: Status)
    ensures r.Failed? ==> r.error.JsonError? || r.error == JsonScanUndefined || r.error == JsonScanEndless
    // the scan read out of range, or its cursor came back to where it was
    ensures r == Failed(JsonScanUndefined) ==> exists c :: LoopHead(json, c) && SeparatorAt(json, c, NPOS)
    ensures r == Failed(JsonScanEndless) ==> MovedBack(json)
    ensures r.Failed? && r.error.JsonError? ==>
              r.error.message != "" && exists o :: Defined(o) && o != Complete && r.error.message == Message(o)
    ensures r.Ok? ==> forall w :: w in FieldNames(required) ==> QuotedIn(json, w)
    ensures '{' !in json ==> r == Failed(JsonError("no open brace"))
    ensures (exists ps :: FlatObjectCovering(json, ps, FieldNames(required))) ==> r == Ok
    ensures (exists ps :: FlatObject(json, ps) && !(FieldNames(required) <= Keys(ps)))
            ==> r.Failed? && r.error.JsonError? && r.error.message[..8] == "missing "
  {
    var scan := CheckRequiredFields(required, json);
    if scan.OutOfRange? {
      return Failed(JsonScanUndefined);
    } else if scan.Cycles? {
      return Failed(JsonScanEndless);
    }
    var message := Message(scan);
    if message != "" {
      if scan.Missing? {
        MissingMessage(scan);
      }
      assert Defined(scan) && scan != Complete && message == Message(scan);
      return Failed(JsonError(message));
    }
    r := Ok;
  }

  /** The guard of `approvetoken`: walks the rows with this symbol and fails
      on the first one already approved for this contract, use case and chain. */
  method ScanApproved(rows: seq<Token>, usecase: Name, chain: string, contract: Name, sym: SymbolCode)
    returns (blocked: bool)
    ensures blocked == ApprovalBlocked(rows, usecase, chain, contract, sym)
  {
    var i := 0;
    while i < |rows|
      invariant 0 <= i <= |rows|
      invariant forall j :: 0 <= j < i ==> !Blocks(rows[j], usecase, chain, contract, sym)
    {
      var t := rows[i];
      if t.symbolcode == sym {
        if !(t.contract != contract || t.usecase != usecase || t.chainName != chain || !t.approved) {
          assert Blocks(rows[i], usecase, chain, contract, sym);
          return true;
        }
      }
      i := i + 1;
    }
    return false;
  }

  /** What the hosting chain supplies to an action: the accounts that signed
      it (require_auth), the existing accounts (is_account) and, for each
      token contract, the symbols its `stat` table holds. */
  datatype Context = Context(signers: set<Name>, accounts: set<Name>, stats: set<(Name, SymbolCode)>)

  datatype Error =
    | MissingAuthority(account: Name)
    | NoContractAccount          // "no contract account"
    | InvalidSymbol              // "invalid symbol"
    | JsonTooLong                // "json string is > MAXJSONLENGTH"
    | InvalidUseCase             // "invalid use case"
    | InvalidChain               // "invalid chain"
    | TokenAlreadySubmitted      // "token already submitted"
    | NoSymbolStat               // "no symbol <sym> in <contract>"
    | JsonError(message: string) // "json error: <message>"
    | JsonScanUndefined          // the scan read out of range
    | JsonScanEndless            // the scan never ends
    | DuplicateSymbol            // "duplicate symbol"
    | UseCaseNotFound            // "usecase not found"
    | NoMatchingRow              // "no matching row to approve"
    | CannotOverwrite            // "cannot overwrite existing token"
    | ManagerNotFound            // "manager account not found"
    | UseCaseExists              // "usecase already exists"
    | UseCaseMissing             // "usecase '<name>' does not exist"
    | NotManager                 // "'<manager>' does not manage usecase '<name>'"
    | ChainNameTooLong           // "chain name too long"
    | InvalidFieldName           // "invalid field name"
    | FieldNameTooLong           // "field name too long"

  datatype Status = Ok | Failed(error: Error)

  class TokensMaster {
    /** The account the contract runs as (get_self()). */
    const contractAccount: Name
    /** MAXJSONLENGTH. */
    const maxJsonLength: nat
    /** The use-case table. */
    var usecases: map<Name, UseCase>
    /** The token tables, one per use-case scope; a missing scope is empty. */
    var tokens: map<Name, seq<Token>>

    ghost predicate Valid()
      reads this
    {
      && tokens.Keys <= usecases.Keys
      && (forall u :: u in usecases ==> usecases[u].usecase == u)
      && (forall u :: u in usecases ==> FieldsValid(usecases[u].requiredFields) && |usecases[u].allowedChain| < 13)
      && (forall u :: u in tokens ==> TableValid(u, tokens[u]))
    }

    function Rows(usecase: Name): seq<Token>
      reads this
    {
      if usecase in tokens then tokens[usecase] else []
    }

    constructor (contractAccount: Name, maxJsonLength: nat)
      ensures Valid()
      ensures this.contractAccount == contractAccount && this.maxJsonLength == maxJsonLength
      ensures usecases == map[] && tokens == map[]
    {
      this.contractAccount := contractAccount;
      this.maxJsonLength := maxJsonLength;
      usecases := map[];
      tokens := map[];
    }

    /** `reset`: drops the token table of every use case, then the use-case
        table. */
    method Reset(ctx: Context) returns (r: Status)
      requires Valid()
      modifies this
      ensures Valid()
      ensures r == if contractAccount in ctx.signers then Ok else Failed(MissingAuthority(contractAccount))
      ensures r.Ok? ==> usecases == map[] && tokens == map[]
      ensures r.Failed? ==> usecases == old(usecases) && tokens == old(tokens)
    {
      if contractAccount !in ctx.signers {
        return Failed(MissingAuthority(contractAccount));
      }
      var pending := usecases.Keys;
      while pending != {}
        invariant usecases == old(usecases) && pending <= usecases.Keys
        invariant tokens.Keys == old(tokens).Keys - (usecases.Keys - pending)
        invariant forall u :: u in tokens ==> tokens[u] == old(tokens)[u]
        decreases pending
      {
        var u :| u in pending;
        tokens := tokens - {u};
        pending := pending - {u};
      }
      assert tokens.Keys == {};
      usecases := map[];
      r := Ok;
    }

    /** The checks `submittoken` makes before it reads the use case's
        required fields, all passing. */
    ghost predicate SubmitChecksPass(ctx: Context, submitter: Name, usecase: Name, chain: string,
                                     contract: Name, symbolcode: SymbolCode, json: string)
      reads this
    {
      && submitter in ctx.signers
      && contract in ctx.accounts
      && ValidSymbolCode(symbolcode)
      && |json| <= maxJsonLength
      && usecase in usecases
      && usecases[usecase].allowedChain == chain
      && FindSignature(Rows(usecase), Signature(submitter, usecase, chain, contract, symbolcode)) == -1
      && (contract, symbolcode) in ctx.stats
    }

    /** `submittoken`: appends an unapproved row to the use case's table. */
    method SubmitToken(ctx: Context, submitter: Name, usecase: Name, chain: string,
                       contract: Name, symbolcode: SymbolCode, json: string) returns (r: Status)
      requires Valid()
      modifies this
      ensures Valid()
      ensures usecases == old(usecases)
      ensures r.Failed? ==> tokens == old(tokens)
      // the checks, in the order the action makes them
      ensures submitter !in ctx.signers ==> r == Failed(MissingAuthority(submitter))
      ensures submitter in ctx.signers && contract !in ctx.accounts ==> r == Failed(NoContractAccount)
      ensures submitter in ctx.signers && contract in ctx.accounts && !ValidSymbolCode(symbolcode)
              ==> r == Failed(InvalidSymbol)
      ensures submitter in ctx.signers && contract in ctx.accounts && ValidSymbolCode(symbolcode)
              && |json| > maxJsonLength
              ==> r == Failed(JsonTooLong)
      ensures submitter in ctx.signers && contract in ctx.accounts && ValidSymbolCode(symbolcode)
              && |json| <= maxJsonLength && usecase !in usecases
              ==> r == Failed(InvalidUseCase)
      ensures submitter in ctx.signers && contract in ctx.accounts && ValidSymbolCode(symbolcode)
              && |json| <= maxJsonLength && usecase in usecases && usecases[usecase].allowedChain != chain
              ==> r == Failed(InvalidChain)
      ensures submitter in ctx.signers && contract in ctx.accounts && ValidSymbolCode(symbolcode)
              && |json| <= maxJsonLength && usecase in usecases && usecases[usecase].allowedChain == chain
              && FindSignature(old(Rows(usecase)), Signature(submitter, usecase, chain, contract, symbolcode)) != -1
              ==> r == Failed(TokenAlreadySubmitted)
      ensures submitter in ctx.signers && contract in ctx.accounts && ValidSymbolCode(symbolcode)
              && |json| <= maxJsonLength && usecase in usecases && usecases[usecase].allowedChain == chain
              && FindSignature(old(Rows(usecase)), Signature(submitter, usecase, chain, contract, symbolcode)) == -1
              && (contract, symbolcode) !in ctx.stats
              ==> r == Failed(NoSymbolStat)
      // past those checks only the JSON scan and the symbol check can refuse
      ensures old(SubmitChecksPass(ctx, submitter, usecase, chain, contract, symbolcode, json)) && r.Failed?
              ==> r.error.JsonError? || r.error == JsonScanUndefined || r.error == JsonScanEndless
                  || r.error == DuplicateSymbol
      ensures r.Failed? && r.error.JsonError? ==> r.error.message != ""
      ensures r.Failed? && r.error.JsonError? ==>
                exists o :: Defined(o) && o != Complete && r.error.message == Message(o)
      // a JSON without `{` is refused with the scan's first message
      ensures old(SubmitChecksPass(ctx, submitter, usecase, chain, contract, symbolcode, json)) && '{' !in json
              ==> r == Failed(JsonError("no open brace"))
      ensures r == Failed(DuplicateSymbol)
              ==> usecases[usecase].uniqueSymbols && HasSymbol(old(Rows(usecase)), symbolcode)
      ensures r == Failed(DuplicateSymbol)
              ==> forall w :: w in FieldNames(usecases[usecase].requiredFields) ==> QuotedIn(json, w)
      // a fresh submission whose JSON is a flat object of plain string members
      // with every required key, and whose symbol is not a forbidden duplicate, is accepted
      ensures old(SubmitChecksPass(ctx, submitter, usecase, chain, contract, symbolcode, json))
              && (exists ps :: FlatObjectCovering(json, ps, FieldNames(usecases[usecase].requiredFields)))
              && !(usecases[usecase].uniqueSymbols && HasSymbol(old(Rows(usecase)), symbolcode))
              ==> r == Ok
      // the same submission with a symbol the use case already holds, when
      // symbols must be unique, is refused for that
      ensures old(SubmitChecksPass(ctx, submitter, usecase, chain, contract, symbolcode, json))
              && (exists ps :: FlatObjectCovering(json, ps, FieldNames(usecases[usecase].requiredFields)))
              && usecases[usecase].uniqueSymbols && HasSymbol(old(Rows(usecase)), symbolcode)
              ==> r == Failed(DuplicateSymbol)
      // a flat object of plain string members that lacks a required key is
      // refused with the scan's "missing" message
      ensures old(SubmitChecksPass(ctx, submitter, usecase, chain, contract, symbolcode, json))
              && (exists ps :: FlatObject(json, ps) && !(FieldNames(usecases[usecase].requiredFields) <= Keys(ps)))
              ==> r.Failed? && r.error.JsonError? && r.error.message[..8] == "missing "
      // success: every required key is a quoted key of the JSON, and exactly one row is added
      ensures r.Ok? ==> old(SubmitChecksPass(ctx, submitter, usecase, chain, contract, symbolcode, json))
      ensures r.Ok? ==> forall w :: w in FieldNames(usecases[usecase].requiredFields) ==> QuotedIn(json, w)
      ensures r.Ok? ==> !(usecases[usecase].uniqueSymbols && HasSymbol(old(Rows(usecase)), symbolcode))
      ensures r.Ok? ==>
                tokens == old(tokens)[usecase := old(Rows(usecase))
                  + [Token(NextId(old(Rows(usecase))), submitter, usecase, contract, symbolcode, chain, json, false)]]
    {
      if submitter !in ctx.signers {
        return Failed(MissingAuthority(submitter));
      }
      if contract !in ctx.accounts {
        return Failed(NoContractAccount);
      }
      if !ValidSymbolCode(symbolcode) {
        return Failed(InvalidSymbol);
      }
      if |json| > maxJsonLength {
        return Failed(JsonTooLong);
      }
      if usecase !in usecases {
        return Failed(InvalidUseCase);
      }
      var uc := usecases[usecase];
      if uc.allowedChain != chain {
        return Failed(InvalidChain);
      }
      var rows := Rows(usecase);
      if FindSignature(rows, Signature(submitter, usecase, chain, contract, symbolcode)) != -1 {
        return Failed(TokenAlreadySubmitted);
      }
      if (contract, symbolcode) !in ctx.stats {
        return Failed(NoSymbolStat);
      }
      var t := Token(NextId(rows), submitter, usecase, contract, symbolcode, chain, json, false);

      r := CheckSubmittedJson(uc.requiredFields, json);
      if r.Failed? {
        return;
      }

      if uc.uniqueSymbols && HasSymbol(rows, symbolcode) {
        return Failed(DuplicateSymbol);
      }

      AppendKeepsTableValid(usecase, rows, t);
      tokens := tokens[usecase := rows + [t]];
      r := Ok;
    }

    /** `approvetoken`: the use case's manager approves the row with the
        given signature, or erases it. */
    method ApproveToken(ctx: Context, submitter: Name, usecase: Name, chain: string,
                        contract: Name, symbolcode: SymbolCode, approve: bool) returns (r: Status)
      requires Valid()
      modifies this
      ensures Valid()
      ensures usecases == old(usecases)
      ensures r.Failed? ==> tokens == old(tokens)
      ensures usecase !in usecases ==> r == Failed(UseCaseNotFound)
      ensures usecase in usecases && usecases[usecase].manager !in ctx.signers
              ==> r == Failed(MissingAuthority(usecases[usecase].manager))
      ensures usecase in usecases && usecases[usecase].manager in ctx.signers ==>
                var rows := old(Rows(usecase));
                var k := FindSignature(rows, Signature(submitter, usecase, chain, contract, symbolcode));
                && (k == -1 ==> r == Failed(NoMatchingRow))
                && (k != -1 && approve && ApprovalBlocked(rows, usecase, chain, contract, symbolcode)
                    ==> r == Failed(CannotOverwrite))
                && (k != -1 && approve && !ApprovalBlocked(rows, usecase, chain, contract, symbolcode)
                    ==> r == Ok && tokens == old(tokens)[usecase := rows[k := rows[k].(approved := true)]])
                && (k != -1 && !approve
                    ==> r == Ok && tokens == old(tokens)[usecase := rows[..k] + rows[k + 1..]])
    {
      if usecase !in usecases {
        return Failed(UseCaseNotFound);
      }
      var uc := usecases[usecase];
      if uc.manager !in ctx.signers {
        return Failed(MissingAuthority(uc.manager));
      }
      var rows := Rows(usecase);
      var k := FindSignature(rows, Signature(submitter, usecase, chain, contract, symbolcode));
      if k == -1 {
        return Failed(NoMatchingRow);
      }
      if approve {
        var blocked := ScanApproved(rows, usecase, chain, contract, symbolcode);
        if blocked {
          return Failed(CannotOverwrite);
        }
        ApproveKeepsTableValid(usecase, rows, k);
        tokens := tokens[usecase := rows[k := rows[k].(approved := true)]];
      } else {
        EraseKeepsTableValid(usecase, rows, k);
        tokens := tokens[usecase := rows[..k] + rows[k + 1..]];
      }
      r := Ok;
    }

    /** `usecase`: adds a use case with its manager, or removes one together
        with its whole token table. */
    method ManageUseCase(ctx: Context, usecase: Name, manager: Name, add: bool) returns (r: Status)
      requires Valid()
      modifies this
      ensures Valid()
      ensures r.Failed? ==> usecases == old(usecases) && tokens == old(tokens)
      ensures contractAccount !in ctx.signers ==> r == Failed(MissingAuthority(contractAccount))
      ensures contractAccount in ctx.signers && manager !in ctx.accounts ==> r == Failed(ManagerNotFound)
      ensures contractAccount in ctx.signers && manager in ctx.accounts && add ==>
                if usecase in old(usecases) then r == Failed(UseCaseExists)
                else r == Ok && tokens == old(tokens)
                     && usecases == old(usecases)[usecase := UseCase(usecase, manager, false, "", "")]
      ensures contractAccount in ctx.signers && manager in ctx.accounts && !add ==>
                if usecase !in old(usecases) then r == Failed(UseCaseMissing)
                else if old(usecases)[usecase].manager != manager then r == Failed(NotManager)
                else r == Ok && usecases == old(usecases) - {usecase} && tokens == old(tokens) - {usecase}
    {
      if contractAccount !in ctx.signers {
        return Failed(MissingAuthority(contractAccount));
      }
      if manager !in ctx.accounts {
        return Failed(ManagerNotFound);
      }
      if add {
        if usecase in usecases {
          return Failed(UseCaseExists);
        }
        usecases := usecases[usecase := UseCase(usecase, manager, false, "", "")];
      } else {
        if usecase !in usecases {
          return Failed(UseCaseMissing);
        }
        if usecases[usecase].manager != manager {
          return Failed(NotManager);
        }
        usecases := usecases - {usecase};
        tokens := tokens - {usecase};
      }
      r := Ok;
    }

    /** `usecasecfg`: the manager sets the unique-symbols flag, the allowed
        chain and the required fields, after checking the last two. */
    method ConfigureUseCase(ctx: Context, usecase: Name, uniqueSymbols: bool,
                            allowedChain: string, requiredFields: string) returns (r: Status)
      requires Valid()
      modifies this
      ensures Valid()
      ensures tokens == old(tokens)
      ensures r.Failed? ==> usecases == old(usecases)
      ensures usecase !in old(usecases) ==> r == Failed(UseCaseNotFound)
      ensures usecase in old(usecases) && old(usecases)[usecase].manager !in ctx.signers
              ==> r == Failed(MissingAuthority(old(usecases)[usecase].manager))
      ensures usecase in old(usecases) && old(usecases)[usecase].manager in ctx.signers ==>
                && (|allowedChain| >= 13 ==> r == Failed(ChainNameTooLong))
                && (|allowedChain| < 13 ==> (r == Ok <==> FieldsValid(requiredFields)))
      // a list the character loop refuses gives that loop's error
      ensures usecase in old(usecases) && old(usecases)[usecase].manager in ctx.signers
              && |allowedChain| < 13 && !FieldsValid(requiredFields)
              ==> r == Failed(InvalidFieldName) || r == Failed(FieldNameTooLong)
      ensures r == Failed(InvalidFieldName)
              ==> exists i: nat :: FirstFailure(requiredFields, i) && !InCharmap(requiredFields[i])
      ensures r == Failed(FieldNameTooLong)
              ==> exists i: nat :: FirstFailure(requiredFields, i) && InCharmap(requiredFields[i])
      ensures r.Ok? ==>
                usecases == old(usecases)[usecase := old(usecases)[usecase].(
                  uniqueSymbols := uniqueSymbols, allowedChain := allowedChain, requiredFields := requiredFields)]
    {
      if usecase !in usecases {
        return Failed(UseCaseNotFound);
      }
      var uc := usecases[usecase];
      if uc.manager !in ctx.signers {
        return Failed(MissingAuthority(uc.manager));
      }
      if |allowedChain| >= 13 {
        return Failed(ChainNameTooLong);
      }
      var check := CheckFieldNames(requiredFields);
      if check == BadChar {
        return Failed(InvalidFieldName);
      } else if check == NameTooLong {
        return Failed(FieldNameTooLong);
      }
      usecases := usecases[usecase := uc.(
        uniqueSymbols := uniqueSymbols, allowedChain := allowedChain, requiredFields := requiredFields)];
      r := Ok;
    }
  }
}

=== FILE: RequiredFields.dfy ===
/** A use case's `required_fields`: a space-separated list of JSON keys.
    `usecasecfg` checks it character by character before storing it, and
    `submittoken` cuts it into the map of keys that the JSON must contain. */
module RequiredFields {
  import opened CppString
  import opened FieldMap

  function Last(parts: seq<string>): string
    requires |parts| >= 1
  {
    parts[|parts| - 1]
  }

  /** Reference reading of a space-separated list: the string cut at every
      space, so n spaces give n + 1 parts, some of them possibly empty. */
  function Split(s: string): (parts: seq<string>)
    ensures |parts| >= 1
    decreases |s|
  {
    if s == [] then [""]
    else
      var init := Split(s[..|s| - 1]);
      var c := s[|s| - 1];
      if c == ' ' then init + [""]
      else init[..|init| - 1] + [Last(init) + [c]]
  }

  /** The parts glued back together with one space between neighbours. */
  function Join(parts: seq<string>): string
    requires |parts| >= 1
  {
    if |parts| == 1 then parts[0]
    else Join(parts[..|parts| - 1]) + " " + Last(parts)
  }

  /** Splitting loses nothing: joining the parts gives the string back. */
  lemma {:induction false} JoinSplit(s: string)
    ensures Join(Split(s)) == s
    decreases |s|
  {
    if s != [] {
      var t, c := s[..|s| - 1], s[|s| - 1];
      assert s == t + [c];
      JoinSplit(t);
      var init := Split(t);
      if c == ' ' {
        assert (init + [""])[..|init|] == init;
      } else {
        var parts := init[..|init| - 1] + [Last(init) + [c]];
        if |init| > 1 {
          assert parts[..|parts| - 1] == init[..|init| - 1];
        }
      }
    }
  }

  /** No part contains a space. */
  lemma {:induction false} SplitPartsHaveNoSpace(s: string)
    ensures forall i :: 0 <= i < |Split(s)| ==> ' ' !in Split(s)[i]
    decreases |s|
  {
    if s != [] {
      SplitPartsHaveNoSpace(s[..|s| - 1]);
    }
  }

  /** A string without spaces is a single part. */
  lemma {:induction false} SplitWord(s: string)
    requires ' ' !in s
    ensures Split(s) == [s]
    decreases |s|
  {
    if s != [] {
      var t := s[..|s| - 1];
      assert ' ' !in t by {
        forall k | 0 <= k < |t| ensures t[k] != ' ' { assert t[k] == s[k]; }
      }
      SplitWord(t);
      assert s == t + [s[|s| - 1]];
    }
  }

  /** Split's own unfolding, stated for a string written as t + [c]. */
  lemma SplitSnoc(t: string, c: char)
    ensures Split(t + [c]) == if c == ' ' then Split(t) + [""]
                              else Split(t)[..|Split(t)| - 1] + [Last(Split(t)) + [c]]
  {
    assert (t + [c])[..|t|] == t;
  }

  /** Cutting at the first space gives the word before it, then the parts of
      the rest. */
  lemma {:induction false} SplitAtFirstSpace(a: string, b: string)
    requires ' ' !in a
    ensures Split(a + [' '] + b) == [a] + Split(b)
    decreases |b|
  {
    if b == [] {
      assert a + [' '] + b == a + [' '];
      SplitSnoc(a, ' ');
      SplitWord(a);
    } else {
      var b', c := b[..|b| - 1], b[|b| - 1];
      var w := a + [' '] + b';
      assert b == b' + [c];
      assert a + [' '] + b == w + [c];
      SplitAtFirstSpace(a, b');
      SplitSnoc(w, c);
      SplitSnoc(b', c);
      ConsSnoc(a, Split(b'), c);
    }
  }

  /** Split's last step commutes with putting a first part in front. */
  lemma ConsSnoc(a: string, q: seq<string>, c: char)
    requires |q| >= 1
    ensures var p := [a] + q;
            (if c == ' ' then p + [""] else p[..|p| - 1] + [Last(p) + [c]])
            == [a] + (if c == ' ' then q + [""] else q[..|q| - 1] + [Last(q) + [c]])
  {
    var p := [a] + q;
    if c != ' ' {
      assert p[..|p| - 1] == [a] + q[..|q| - 1];
    }
  }

  /** The non-empty parts that are followed by a space. */
  function InnerWords(parts: seq<string>): set<string> {
    set i | 0 <= i < |parts| - 1 && parts[i] != "" :: parts[i]
  }

  /** The keys `submittoken` puts in its map: every non-empty part that is
      followed by a space, and the part after the last space, even if empty. */
  function FieldNames(s: string): set<string> {
    InnerWords(Split(s)) + {Last(Split(s))}
  }

  lemma FieldNamesOfWord(s: string)
    requires ' ' !in s
    ensures FieldNames(s) == {s}
  {
    SplitWord(s);
    assert InnerWords([s]) == {};
  }

  /** A first part in front contributes itself unless it is empty. */
  lemma InnerWordsCons(a: string, q: seq<string>)
    requires |q| >= 1
    ensures InnerWords([a] + q) == (if a == "" then {} else {a}) + InnerWords(q)
  {
    var p := [a] + q;
    forall x | x in InnerWords(p) ensures x in (if a == "" then {} else {a}) + InnerWords(q) {
      var i :| 0 <= i < |p| - 1 && p[i] != "" && p[i] == x;
      if i > 0 { assert p[i] == q[i - 1]; }
    }
    forall x | x in InnerWords(q) ensures x in InnerWords(p) {
      var i :| 0 <= i < |q| - 1 && q[i] != "" && q[i] == x;
      assert p[i + 1] == q[i];
    }
    if a != "" {
      assert p[0] == a;
    }
  }

  lemma FieldNamesAtFirstSpace(a: string, b: string)
    requires ' ' !in a
    ensures FieldNames(a + [' '] + b) == (if a == "" then {} else {a}) + FieldNames(b)
  {
    SplitAtFirstSpace(a, b);
    InnerWordsCons(a, Split(b));
    assert Last([a] + Split(b)) == Last(Split(b));
  }

  /** The empty key is required exactly when the list is empty or ends with
      a space. */
  lemma EmptyFieldName(s: string)
    ensures "" in FieldNames(s) <==> (s == "" || s[|s| - 1] == ' ')
  {
    var parts := Split(s);
    assert "" in FieldNames(s) <==> Last(parts) == "";
  }

  /** The `required_fields` splitting loop of `submittoken`: each round looks
      for the next space, stores the word before it unless it is empty, and
      drops it together with the space; when no space is left the remainder
      is stored, whatever it is. Every key maps to false. */
  method SplitRequiredFields(required: string) returns (fields: Fields)
    ensures Ordered(fields)
    ensures Names(fields) == FieldNames(required)
    ensures forall i :: 0 <= i < |fields| ==> !fields[i].seen
  {
    var req := required;
    fields := [];
    assert Names(fields) == {};
    while true
      invariant Ordered(fields)
      invariant forall i :: 0 <= i < |fields| ==> !fields[i].seen
      invariant Names(fields) + FieldNames(req) == FieldNames(required)
      decreases |req|
    {
      var pos := FindFirstOf(req, {' '}, 0);
      if pos == NPOS {
        FieldNamesOfWord(req);
        fields := Assign(fields, req);
        break;
      }
      var word, rest := req[..pos], req[pos + 1..];
      assert req == word + [' '] + rest;
      FieldNamesAtFirstSpace(word, rest);
      if pos != 0 {
        fields := Assign(fields, word);
      }
      req := rest;
    }
  }

  /** The characters `usecasecfg` admits in a field name. The check is a
      strchr on a C string, which also finds the string's terminating NUL,
      so a NUL character is admitted as well. */
  const Charmap: string := ".12345abcdefghijklmnopqrstuvwxyz"

  predicate InCharmap(x: char) {
    x in Charmap || x == '\0'
  }

  /** `name_length` after reading `s`: the length of its trailing run of
      non-space characters. */
  function TrailingRun(s: string): nat
    decreases |s|
  {
    if s == [] then 0
    else if s[|s| - 1] == ' ' then 0
    else TrailingRun(s[..|s| - 1]) + 1
  }

  /** Character i passes: a space, or an admitted character that leaves the
      current word at most 12 characters long. */
  predicate CharOk(s: string, i: nat)
    requires i < |s|
  {
    s[i] == ' ' || (InCharmap(s[i]) && TrailingRun(s[..i + 1]) < 13)
  }

  predicate FieldsValid(s: string) {
    forall i :: 0 <= i < |s| ==> CharOk(s, i)
  }

  /** Character i is the first one that fails. */
  predicate FirstFailure(s: string, i: nat) {
    i < |s| && !CharOk(s, i) && forall j :: 0 <= j < i ==> CharOk(s, j)
  }

  datatype NamesCheck = NamesOk | BadChar | NameTooLong

  /** The character loop of `usecasecfg`: a space ends the current word; any
      other character must be admitted ("invalid field name") and must not
      make the word 13 characters long ("field name too long"). The first
      failing character decides the error. */
  method CheckFieldNames(required: string) returns (r: NamesCheck)
    ensures r == NamesOk <==> FieldsValid(required)
    ensures r == BadChar ==> exists i: nat :: FirstFailure(required, i) && !InCharmap(required[i])
    ensures r == NameTooLong ==> exists i: nat :: FirstFailure(required, i) && InCharmap(required[i])
  {
    var nameLength := 0;
    var i := 0;
    while i < |required|
      invariant 0 <= i <= |required|
      invariant nameLength == TrailingRun(required[..i])
      invariant forall j :: 0 <= j < i ==> CharOk(required, j)
    {
      var x := required[i];
      assert required[..i + 1][..i] == required[..i];
      if x == ' ' {
        nameLength := 0;
      } else {
        if !InCharmap(x) {
          assert FirstFailure(required, i);
          return BadChar;
        }
        nameLength := nameLength + 1;
        if !(nameLength < 13) {
          assert FirstFailure(required, i);
          return NameTooLong;
        }
      }
      i := i + 1;
    }
    assert required[..i] == required;
    return NamesOk;
  }

  /** A valid field name: at most 12 admitted characters. */
  predicate IsFieldName(w: string) {
    |w| <= 12 && forall k :: 0 <= k < |w| ==> InCharmap(w[k])
  }

  lemma {:induction false} TrailingRunIsLastPart(s: string)
    ensures TrailingRun(s) == |Last(Split(s))|
    decreases |s|
  {
    if s != [] {
      TrailingRunIsLastPart(s[..|s| - 1]);
    }
  }

  lemma {:induction false} ValidPartsAreNames(s: string)
    requires FieldsValid(s)
    ensures forall i :: 0 <= i < |Split(s)| ==> IsFieldName(Split(s)[i])
    decreases |s|
  {
    if s != [] {
      var t, c := s[..|s| - 1], s[|s| - 1];
      assert FieldsValid(t) by {
        forall i | 0 <= i < |t| ensures CharOk(t, i) {
          assert CharOk(s, i);
          assert t[..i + 1] == s[..i + 1];
        }
      }
      ValidPartsAreNames(t);
      if c != ' ' {
        assert CharOk(s, |s| - 1);
        assert s[..|s|] == s;
        TrailingRunIsLastPart(t);
        var init := Split(t);
        var last := Last(init) + [c];
        assert IsFieldName(Last(init));
        assert IsFieldName(last) by {
          forall k | 0 <= k < |last| ensures InCharmap(last[k]) {
            if k < |last| - 1 { assert last[k] == Last(init)[k]; }
          }
        }
      }
    }
  }

  /** What `usecasecfg` admits is what `submittoken` can look for: every key
      cut from a valid list is a name of at most 12 admitted characters. */
  lemma ValidFieldsGiveFieldNames(s: string)
    requires FieldsValid(s)
    ensures forall w :: w in FieldNames(s) ==> IsFieldName(w)
  {
    ValidPartsAreNames(s);
  }
}
